=== FILE: README.md ===
# basic_zoom in Dafny

A model of the logic in `basic_zoom`, a thin client for the Zoom REST API, with
proofs of what that logic promises. The model covers four things:

- how `ZoomAPIClient.__init__` picks an authentication scheme (JWT key and
  secret, server-to-server OAuth, or a caller-supplied OAuth2 session);
- how `parse_request_response` sorts an HTTP reply into one of four results: a
  status code, a decoded JSON body, raw bytes, or a raised `ZoomAPIError`;
- the paginating `get`, which does five things:
  - fills in a default `page_size` in the caller's parameter dict;
  - derives the data key from the endpoint's last path segment;
  - checks that the server echoed the requested `from`/`to` dates;
  - follows `next_page_token`, appending each later page's list to the first
    page's list;
  - strips the cursor from the result;
- the server-to-server token provider `S2S_AUTH`: a held access token and its
  expiry. It refreshes when the token is missing or stale, and stamps every
  request with `Authorization: Bearer <token>`;
- the two exception classes and the message each carries.

Files:

- `values.dfy` (`Values`): the Python values the client passes around, as one
  JSON datatype (`JNull` is `None`), plus truthiness, `dict.get`, `str()` and
  string containment.
- `exceptions.dfy` (`Exceptions`): `ZoomAPIError` and `ZoomAPIDatetimeError`
  as records built by functions, and `str(e)`.
- `client.dfy` (`Client`): scheme selection as the code is written, and the
  evidently intended version.
- `responses.dfy` (`Responses`): the reply classifier.
- `s2s_auth.dfy` (`S2S`):
  - the provider as a class whose `Call` updates its token and expiry and the
    request's header map;
  - a pure specification: `Credential` is the state and `AfterCall` one call,
    which `Call` is proved to take; `Run` folds `AfterCall` over a sequence of
    calls (`RunThenCall` shows it is successive steps), and the lemmas about
    runs of calls are stated on `Run`.
- `paging.dfy` (`Paging`):
  - `Get` is an imperative method. It updates the caller's dict (class
    `Params`) in place, and its `while` loop lives in `MergePages`;
  - it is proved equal to the pure specification `GetSpec`. The lemmas state
    the paging properties against that specification.

The outside world becomes parameters:

- The server's replies to `get` are a finite transcript. `replies[0]` answers
  the first request and `replies[i]` the i-th follow-up.
- The token exchange's reply is a `TokenReply` value.
- The clock readings are integers (seconds).

## Model

| member | source | states |
|---|---|---|
| Client.SelectAuth | basic_zoom/base.py:36-63 | the RuntimeError exactly when no key/secret pair, no full S2S triple and no session is passed (compared with None); otherwise JWT when key and secret are truthy, then S2S when all three are truthy, then OAuth when a session is passed, else no session is bound; the chosen scheme carries the arguments |
| Client.NonEmptyCredentialsAlwaysBind | basic_zoom/base.py:36-63 | when no argument is the empty string, construction either raises the RuntimeError or binds a session |
| Client.EmptyApiKeyLeavesSessionUnbound | basic_zoom/base.py:36-74 | an empty API key with a secret passes the guard, matches no branch and reaches `s.mount` with `s` unbound |
| Client.SelectAuthIntended | basic_zoom/base.py:36-63 | the corrected selection never leaves the session unbound, and raises the RuntimeError exactly when no truthy pair, no truthy triple and no session is given |
| Client.IntendedAgreesExceptOnCrash | basic_zoom/base.py:36-74 | the corrected selection agrees with the written one wherever that binds a session or raises the RuntimeError, and raises the RuntimeError where the written one crashes |
| Responses.ErrorFor | basic_zoom/base.py:90-96 | an empty or non-JSON body raises the decoder's error; a dict body with `message` gives a ZoomAPIError carrying exactly that value; a dict without it gives "Received status code {status} on {url}"; any ZoomAPIError comes from a decoded, non-empty body |
| Responses.Classify | basic_zoom/base.py:80-96 | a value is returned iff the status is 200, 201 or 204: the status code for an empty body, the decoded JSON when the body decodes, the raw bytes otherwise; any other status raises `ErrorFor` |
| Responses.ClassifiedValueComesFromReply | basic_zoom/base.py:81-88 | every returned value is the reply's own status code (empty body), decoded body (non-empty) or bytes (non-empty, not JSON) |
| Responses.GenericMessage | basic_zoom/base.py:94-96 | the message starts "Received status code ", ends " on " and the URL, and has a non-empty status text between the two |
| Responses.GenericMessageIdentifiesReply | basic_zoom/base.py:94-96 | two replies get the same synthesised message only if they have the same status code and URL |
| Exceptions.NewZoomAPIError | basic_zoom/exceptions.py:9-13 | the message is the first argument, or None when there is none |
| Exceptions.ApiErrorStr | basic_zoom/exceptions.py:1-3 | `str(e)` is the message when it is a string and a TypeError (None) otherwise |
| Exceptions.ApiErrorStrRoundTrip | basic_zoom/exceptions.py:1-13 | an error built from one string prints as that string |
| Exceptions.NewDatetimeError | basic_zoom/exceptions.py:16-42 | the four date values are stored as given; the combined, from-only, to-only or "Unknown date errir" message is chosen by the four values' truthiness; the message is never empty |
| Exceptions.DatetimeMessageShowsBranch | basic_zoom/exceptions.py:30-42 | the message starts with the from-text iff both from-values are truthy, with the to-text iff only the to-pair is, with the Unknown-text iff neither is, and always ends with the date-range remark |
| S2S.TokenUrl | basic_zoom/s2s_auth.py:22-25 | the exchange URL is the fixed endpoint, `&token_index=0&account_id=`, then the account id |
| S2S.TokenUrlRoundTrip | basic_zoom/s2s_auth.py:16-25 | the account id is read back out of the exchange URL unchanged, so distinct accounts get distinct URLs |
| S2S.Exchanged | basic_zoom/s2s_auth.py:30-39 | after an exchange the token is the reply's access token and the expiry plus 300 s is the refresh time plus `expires_in` |
| S2S.AfterCall | basic_zoom/s2s_auth.py:41-52 | a call leaves a token held; it exchanges when the token is missing or `now` has reached the expiry, and otherwise leaves token and expiry unchanged, with `now` before the expiry |
| S2S.NoExchangeBeforeExpiry | basic_zoom/s2s_auth.py:44-49 | any run of calls before the held token's expiry makes no exchange and changes nothing |
| S2S.OneExchangePerLifetime | basic_zoom/s2s_auth.py:34-49 | a stale token is exchanged exactly once, and calls before the new expiry reuse the new token |
| S2S.ShortLivedTokenRefreshesEveryCall | basic_zoom/s2s_auth.py:34-47 | a token granted for 300 s or less is stale at once, so the next call exchanges again |
| S2S.NeedsRefresh | basic_zoom/s2s_auth.py:44-47 | `__call__`'s test: no token held, or the clock has reached the stored expiry |
| S2S.BearerHeader | basic_zoom/s2s_auth.py:51 | the header is "Bearer " followed by the token, which can be read back from it |
| S2S.Run | basic_zoom/s2s_auth.py:41-52 | a run of successive calls makes at most one exchange per call; after one call or more a token is held; from no token at least one exchange is made; a run with no exchange leaves the state as it was |
| S2S.RunThenCall | basic_zoom/s2s_auth.py:41-52 | a run of calls followed by one more ends in `AfterCall` of the run's final state, with one more exchange exactly when that state needs a refresh |
| S2S.S2SAuth.constructor | basic_zoom/s2s_auth.py:6-18 | the ids are stored as given; no token is held; the expiry is the construction time; so the first call always exchanges |
| S2S.S2SAuth.GenerateNewAccessToken | basic_zoom/s2s_auth.py:20-39 | sends the exchange to `TokenUrl` with the client id and secret, sets the expiry to `expires_in - 300` s after the refresh, and returns the new token without storing it |
| S2S.S2SAuth.Call | basic_zoom/s2s_auth.py:41-52 | the new state is `AfterCall` of the old; an exchange is sent iff the token was missing or stale, to `TokenUrl` with the client id and secret; the Authorization header becomes "Bearer " and the held token, and no other header changes |
| Paging.WithDefaultPageSize | basic_zoom/base.py:120-130 | `page_size` is added only when absent: "300" for the two phone endpoints, "100" otherwise; no caller entry is changed |
| Paging.DataKey | basic_zoom/base.py:144-145 | the data key contains no `/`, `?`, `#` or `;` |
| Paging.DataKeyOfPath | basic_zoom/base.py:144-145 | any endpoint path ending in `/key` has data key `key`, also when a `?` query or `#` fragment follows it |
| Paging.Contains | basic_zoom/base.py:148-153 | `k in v` is key membership on a dict body, and a TypeError on anything but a dict, list or string |
| Paging.IsInt | basic_zoom/base.py:136 | `type(v) == int`: a bare status code or a JSON integer body |
| Paging.ExtendBy | basic_zoom/base.py:186-189 | `extend` on anything but a list raises an AttributeError; a list appends exactly when the argument is a list or a string, and then appends what iterating over it yields; a dict argument is the unordered case; a number, boolean or None raises a TypeError |
| Paging.StringExtendAppendsCharacters | basic_zoom/base.py:186-189 | extending the list with a string appends one one-character string per character, in order |
| Paging.PageStep | basic_zoom/base.py:186-189 | a fetched page goes through the `extend` step exactly when it lacks the data key, or the first page's value is a list and the page's is a list or a string; what it appends is the page's items under the key |
| Paging.ContinuedReplyIsPage | basic_zoom/base.py:181-189 | `Continues`, the loop's condition for going on: a reply the loop goes on from was classified as a success with a dict body holding a cursor; when it holds the data key, the first page's value is a list |
| Paging.Halt | basic_zoom/base.py:181-189 | a reply the loop cannot go on from ends it with an exception that is never the date error, or at the unordered dict case |
| Paging.Follow | basic_zoom/base.py:181-189 | no follow-up is sent when the first cursor is ""; otherwise the first one carries it; at most one follow-up per reply plus one; a walk that finishes fetched at most the replies available; the loop never raises a date error |
| Paging.FollowAppendsPageLists | basic_zoom/base.py:179-189 | a finished walk appended the items of the fetched pages, in page order, with a page without the key adding nothing |
| Paging.FinishedWalkContinues | basic_zoom/base.py:181-189 | a finished walk went on from every page it fetched: each was a dict whose `extend` succeeded and which held a cursor |
| Paging.FollowSendsPageCursors | basic_zoom/base.py:181-184 | no cursor sent is ""; each cursor after the first is the previous fetched page's cursor; a finished walk ends at a page whose cursor is "" |
| Paging.NextPage | basic_zoom/base.py:184-186 | a follow-up is a dict page only when the reply was classified as a success whose decoded body is that dict; otherwise it is the classified value when that is no dict, or the exception the reply raises, which is never a date error |
| Paging.NotDictFault | basic_zoom/base.py:181-189 | a follow-up value that is no dict ends the loop with an AttributeError exactly when `key in value` holds and the first page's data value is no list (`extend` is looked up before the value is indexed), and with a TypeError otherwise |
| Paging.NotDictPageEndsWalk | basic_zoom/base.py:181-189 | a follow-up that is no dict ends the walk after its one request, with the AttributeError or TypeError `NotDictFault` names |
| Paging.FirstReplyRun | basic_zoom/base.py:132-184 | whatever the first reply, the first request carries the prepared parameters, every request differs from them at most under the cursor, and the caller's dict ends as the last request's parameters |
| Paging.FromFirstReply | basic_zoom/base.py:132-141 | the pure model of `get` after the first reply: an error is raised, an integer result or any result without `auto_page` is returned, anything else is paged |
| Paging.PageFirstReply | basic_zoom/base.py:143-193 | the pure model of `get` from the data-key test to the end of the loop |
| Paging.GetSpec | basic_zoom/base.py:120-193 | the pure model of the whole `get` against a reply transcript; its properties are the lemmas below and `Get` is proved equal to it |
| Paging.GetSpecShape | basic_zoom/base.py:120-193 | every `get` sends the caller's parameters with the default page size first; the caller's dict ends as the last request's parameters; with no reply at all nothing is returned |
| Paging.UnpagedReplyReturnedAsIs | basic_zoom/base.py:136-141 | a status code, or any reply when `auto_page` is false, is returned as classified after one request |
| Paging.FirstErrorRaised | basic_zoom/base.py:132-133 | an error status on the first reply raises the classifier's exception after one request |
| Paging.PageWithoutCursorReturnedAsIs | basic_zoom/base.py:144-153 | a first page without the data key or without `next_page_token` is returned unchanged after one request |
| Paging.DateMismatch | basic_zoom/base.py:159-168 | the date check: never raised when the request names neither `from` nor `to`, never when the page echoes both, and always when a given date is missing from the page |
| Paging.DateErrorFor | basic_zoom/base.py:170-176 | the date error carries the request's `from` and `to` and the page's `from` and `to`, in that order, with a non-empty message |
| Paging.DateErrorExactlyOnMismatch | basic_zoom/base.py:159-176 | on a page that would be followed, the date error is raised iff a given `from` or `to` differs from the page's, whatever the cursor; it carries the four values and is raised before any follow-up |
| Paging.FollowUpsCarryPageCursors | basic_zoom/base.py:181-184 | a follow-up is sent iff the first cursor is not ""; the first carries the first page's cursor, each later one the cursor of the page before it; none carries ""; no more follow-ups than replies |
| Paging.Extended | basic_zoom/base.py:179-189 | the first page extended in place keeps every key and every entry but the data key; a list under the key gains the appended items at its end; a value that is no list is left as it was |
| Paging.LoopOutcome | basic_zoom/base.py:181-193 | after the loop, a value is returned exactly when every cursor was followed, and it is a dict without the cursor; an exception is raised exactly when the walk failed |
| Paging.Merged | basic_zoom/base.py:186-193 | the result has the first page's keys less the cursor; a list under the data key is extended by the appended items; every other entry, and a data value that is no list, is the first page's |
| Paging.MergedPageConcatenatesLists | basic_zoom/base.py:179-193 | a returned paged result is the first page with its list followed by the items of the pages fetched, in order, and the cursor removed; every fetched page was a dict whose `extend` succeeded and which held a cursor |
| Paging.UnlistedValueReturnedAsIs | basic_zoom/base.py:179-193 | when the first page's data value is no list, a returned paged result is the first page less the cursor, and no fetched page held the data key |
| Paging.PagingStopsAtEmptyCursor | basic_zoom/base.py:181-193 | a paged result is returned only once the cursor is "": the first page's when nothing was fetched, otherwise the last fetched page's |
| Paging.ParamsChangeOnlyPageSizeAndCursor | basic_zoom/base.py:120-184 | every request agrees with the first except under the cursor; the caller's dict gains at most `page_size` and the cursor and keeps every other entry |
| Paging.LoopBody | basic_zoom/base.py:184-189 | one pass of the loop body goes on exactly from a reply that `Continues` (a dict whose `extend` succeeded and that holds a cursor), with the first page's list extended by the page's items; otherwise it stops as `Halt` says |
| Paging.MergePages | basic_zoom/base.py:179-193 | the loop sets the cursor in the caller's dict before each follow-up, extends the first page's data value, and returns or raises as `Follow` describes, whatever the pages hold |
| Paging.Get | basic_zoom/base.py:98-193 | for every endpoint, parameters and reply transcript, the outcome, the requests sent and the caller's dict afterwards are those of `GetSpec`, also when no dict is passed |

## Left out

- HTTP transport is not modelled: the requests session, the OAuth2 session object and the retry and backoff adapter, including the header replacement at `base.py:76`. A session is a flag saying whether one was passed.
- `post`, `patch`, `delete`: each sends one request and returns what `Responses.Classify` makes of the reply. The request itself is transport.
- The token exchange POST and its JSON decoding are not modelled. Its reply is the `TokenReply` parameter, and the request is returned as an `ExchangeRequest` value.
- The clock (`datetime.utcnow`) is not modelled. Its two readings per refresh are integer parameters: `now` for the refresh decision, `refreshedAt` for the new expiry.
- `basic_zoom/jwt_auth.py` is not part of this model. Its refresh decision rests on PyJWT's encoding and expiry checks.
- `basic_zoom/print.py` (terminal output) and `setup.py` (package metadata) are not part of this model.
- Floating-point JSON numbers, and Python's `True == 1` in the date comparison, are not modelled. JSON numbers are integers, and the booleans are a separate case.
- `Values.Show`: `str()` of a list or dict is a placeholder (`[...]`, `{...}`). Dict ordering cannot be expressed on Dafny maps. This only affects the text of a date-error message built from container values.
- `Paging.DataKey`: `urlparse` is modelled only as far as the path goes, without a scheme or authority. Endpoints here are paths such as `/users`.
- `Paging.Get`: extending the list with a dict appends the dict's keys in the JSON document's order, which the model's maps do not record. The model stops there with `KeyOrderUnknown`, so the requests Python would go on to send are not in `sent`.
- `Paging.Get`: a transcript that ends while a cursor is still pending yields `TranscriptEnded`. That outcome stands for a request whose reply the model was not given. It is not something the client does.
- `Paging.Get`: a later page that is not a dict ends in the AttributeError or TypeError Python raises on it (`Paging.NotDictFault`). A later dict without `next_page_token` ends in the KeyError, and a failed `extend` in its AttributeError or TypeError. All are explicit `Crash` outcomes.
- `S2S.S2SAuth.constructor`: the ids are plain strings. Passing None is not modelled, because the client constructs the provider only with truthy ids.

## Findings

| source | as written | input that shows it | evidently intended | confidence | as-written member | corrected member |
|---|---|---|---|---|---|---|
| basic_zoom/base.py:36-74 | the guard compares the credentials with None, while the branches test truthiness | `API_KEY=""`, `API_SECRET="secret"`, nothing else: the guard passes, no branch binds `s`, and `s.mount` raises UnboundLocalError | the RuntimeError for any configuration that selects no scheme | not executed | Client.EmptyApiKeyLeavesSessionUnbound | Client.SelectAuthIntended |

=== FILE: client.dfy ===
/**
 * How `ZoomAPIClient.__init__` chooses its authentication scheme from the
 * constructor arguments. The session, retry adapter and headers it then sets
 * up are transport configuration and are not modelled.
 */
module Client {
  import opened Values

  /** Python truthiness of an optional string argument: present and non-empty. */
  predicate Given(arg: Option<string>)
  {
    arg.Some? && arg.value != ""
  }

  datatype Scheme =
    | Jwt(apiKey: string, apiSecret: string)
    | ServerToServer(accountId: string, clientId: string, clientSecret: string)
    | OAuth

  /**
   * What the constructor ends with: a chosen scheme, the RuntimeError of the
   * guard, or the UnboundLocalError raised when no branch bound the session.
   */
  datatype Setup = Configured(scheme: Scheme) | MissingCredentials | SessionUnbound

  /** The guard: no complete key/secret pair, no complete S2S triple and no session object. */
  predicate NothingSupplied(apiKey: Option<string>, apiSecret: Option<string>,
                            accountId: Option<string>, clientId: Option<string>,
                            clientSecret: Option<string>, session: bool)
  {
    (apiKey.None? || apiSecret.None?)
    && (accountId.None? || clientId.None? || clientSecret.None?)
    && !session
  }

  /**
   * The scheme selection as written: the guard compares with None, the
   * branches test truthiness. An OAuth2Session object is always truthy, so
   * `session` says only whether one was passed.
   */
  function SelectAuth(apiKey: Option<string>, apiSecret: Option<string>,
                      accountId: Option<string>, clientId: Option<string>,
                      clientSecret: Option<string>, session: bool): (r: Setup)
    ensures r == MissingCredentials <==>
      NothingSupplied(apiKey, apiSecret, accountId, clientId, clientSecret, session)
    ensures r.Configured? && r.scheme.Jwt? <==>
      !NothingSupplied(apiKey, apiSecret, accountId, clientId, clientSecret, session)
      && Given(apiKey) && Given(apiSecret)
    ensures r.Configured? && r.scheme.ServerToServer? <==>
      !NothingSupplied(apiKey, apiSecret, accountId, clientId, clientSecret, session)
      && !(Given(apiKey) && Given(apiSecret))
      && Given(accountId) && Given(clientId) && Given(clientSecret)
    ensures r == Configured(OAuth) <==>
      !NothingSupplied(apiKey, apiSecret, accountId, clientId, clientSecret, session)
      && !(Given(apiKey) && Given(apiSecret))
      && !(Given(accountId) && Given(clientId) && Given(clientSecret))
      && session
    ensures r.Configured? && r.scheme.Jwt? ==> r.scheme == Jwt(apiKey.value, apiSecret.value)
    ensures r.Configured? && r.scheme.ServerToServer? ==>
      r.scheme == ServerToServer(accountId.value, clientId.value, clientSecret.value)
  {
    if NothingSupplied(apiKey, apiSecret, accountId, clientId, clientSecret, session) then
      MissingCredentials
    else if Given(apiKey) && Given(apiSecret) then
      Configured(Jwt(apiKey.value, apiSecret.value))
    else if Given(accountId) && Given(clientId) && Given(clientSecret) then
      Configured(ServerToServer(accountId.value, clientId.value, clientSecret.value))
    else if session then
      Configured(OAuth)
    else
      SessionUnbound
  }

  /** No supplied argument is the empty string. */
  predicate NoEmptyStrings(apiKey: Option<string>, apiSecret: Option<string>,
                           accountId: Option<string>, clientId: Option<string>,
                           clientSecret: Option<string>)
  {
    apiKey != Some("") && apiSecret != Some("") && accountId != Some("")
    && clientId != Some("") && clientSecret != Some("")
  }

  /**
   * Without empty strings the guard and the branches agree: construction
   * either fails with the RuntimeError or binds a session.
   */
  lemma NonEmptyCredentialsAlwaysBind(apiKey: Option<string>, apiSecret: Option<string>,
                                      accountId: Option<string>, clientId: Option<string>,
                                      clientSecret: Option<string>, session: bool)
    requires NoEmptyStrings(apiKey, apiSecret, accountId, clientId, clientSecret)
    ensures SelectAuth(apiKey, apiSecret, accountId, clientId, clientSecret, session) != SessionUnbound
  {
  }

  /**
   * An empty API key with a secret passes the `== None` guard but matches no
   * truthiness branch, so the constructor reaches the retry set-up with no
   * session bound.
   */
  lemma EmptyApiKeyLeavesSessionUnbound()
    ensures SelectAuth(Some(""), Some("secret"), None, None, None, false) == SessionUnbound
  {
  }

  /**
   * The selection the docstring describes: the guard tests the same
   * truthiness as the branches, so a configuration that binds no session is
   * the RuntimeError.
   */
  function SelectAuthIntended(apiKey: Option<string>, apiSecret: Option<string>,
                              accountId: Option<string>, clientId: Option<string>,
                              clientSecret: Option<string>, session: bool): (r: Setup)
    ensures r != SessionUnbound
    ensures r == MissingCredentials <==>
      !(Given(apiKey) && Given(apiSecret))
      && !(Given(accountId) && Given(clientId) && Given(clientSecret))
      && !session
  {
    if !(Given(apiKey) && Given(apiSecret))
       && !(Given(accountId) && Given(clientId) && Given(clientSecret))
       && !session then
      MissingCredentials
    else if Given(apiKey) && Given(apiSecret) then
      Configured(Jwt(apiKey.value, apiSecret.value))
    else if Given(accountId) && Given(clientId) && Given(clientSecret) then
      Configured(ServerToServer(accountId.value, clientId.value, clientSecret.value))
    else
      Configured(OAuth)
  }

  /**
   * The intended selection changes only the crash: wherever the code as
   * written binds a session or raises the RuntimeError, both agree; where it
   * leaves the session unbound, the intended one raises the RuntimeError.
   */
  lemma IntendedAgreesExceptOnCrash(apiKey: Option<string>, apiSecret: Option<string>,
                                    accountId: Option<string>, clientId: Option<string>,
                                    clientSecret: Option<string>, session: bool)
    ensures var written := SelectAuth(apiKey, apiSecret, accountId, clientId, clientSecret, session);
      var intended := SelectAuthIntended(apiKey, apiSecret, accountId, clientId, clientSecret, session);
      (written != SessionUnbound ==> intended == written)
      && (written == SessionUnbound ==> intended == MissingCredentials)
  {
  }
}

=== FILE: exceptions.dfy ===
/**
 * The two exception classes of the client and the message each carries.
 * Both are plain records: their constructors assign fields once.
 */
module Exceptions {
  import opened Values

  /** `ZoomAPIError`: `message` is the first constructor argument, or None. */
  datatype ZoomAPIError = ZoomAPIError(message: Json)

  /** `ZoomAPIDatetimeError`: the four date values it was built from and its message. */
  datatype ZoomAPIDatetimeError = ZoomAPIDatetimeError(
    requestFrom: Json,
    requestTo: Json,
    responseFrom: Json,
    responseTo: Json,
    message: string)

  /** `ZoomAPIError(*args)`. */
  function NewZoomAPIError(args: seq<Json>): (e: ZoomAPIError)
    ensures args != [] ==> e.message == args[0]
    ensures args == [] ==> e.message == JNull
  {
    if args != [] then ZoomAPIError(args[0]) else ZoomAPIError(JNull)
  }

  /**
   * `str(e)` for a ZoomAPIError: `__str__` returns `message`; Python raises a
   * TypeError when that is not a string, which is `None` here.
   */
  function ApiErrorStr(e: ZoomAPIError): (r: Option<string>)
    ensures r.Some? <==> e.message.JStr?
    ensures r.Some? ==> e.message == JStr(r.value)
  {
    if e.message.JStr? then Some(e.message.s) else None
  }

  /** An error built from a single string argument prints as that string. */
  lemma ApiErrorStrRoundTrip(s: string)
    ensures ApiErrorStr(NewZoomAPIError([JStr(s)])) == Some(s)
  {
  }

  const Limitations := ". This may be due to API date range limitations."
  const FromPrefix := "Request include date from:"
  const ToPrefix := "Request include date to:"
  const UnknownPrefix := "Unknown date errir from:"

  /** The values both ends named, as "from:… to:… but response included from:… to:…" writes them. */
  function BothDetails(rf: Json, rt: Json, sf: Json, st: Json): string
  {
    Show(rf) + " to:" + Show(rt) + " but response included from:" + Show(sf) + " to:" + Show(st)
  }

  function CombinedMessage(rf: Json, rt: Json, sf: Json, st: Json): string
  {
    FromPrefix + BothDetails(rf, rt, sf, st) + Limitations
  }

  function FromMessage(rf: Json, sf: Json): string
  {
    FromPrefix + (Show(rf) + " but response included from:" + Show(sf)) + Limitations
  }

  function ToMessage(rt: Json, st: Json): string
  {
    ToPrefix + (Show(rt) + " but response included to:" + Show(st)) + Limitations
  }

  function UnknownMessage(rf: Json, rt: Json, sf: Json, st: Json): string
  {
    UnknownPrefix + BothDetails(rf, rt, sf, st) + Limitations
  }

  /**
   * `ZoomAPIDatetimeError(request_from, request_to, response_from, response_to)`:
   * keeps the four values as given and picks the message by their truthiness.
   */
  function NewDatetimeError(rf: Json, rt: Json, sf: Json, st: Json): (e: ZoomAPIDatetimeError)
    ensures e.requestFrom == rf && e.requestTo == rt
    ensures e.responseFrom == sf && e.responseTo == st
    ensures Truthy(rf) && Truthy(rt) && Truthy(sf) && Truthy(st) ==>
      e.message == CombinedMessage(rf, rt, sf, st)
    ensures !(Truthy(rf) && Truthy(rt) && Truthy(sf) && Truthy(st)) && Truthy(rf) && Truthy(sf) ==>
      e.message == FromMessage(rf, sf)
    ensures !(Truthy(rf) && Truthy(sf)) && Truthy(rt) && Truthy(st) ==>
      e.message == ToMessage(rt, st)
    ensures !(Truthy(rf) && Truthy(sf)) && !(Truthy(rt) && Truthy(st)) ==>
      e.message == UnknownMessage(rf, rt, sf, st)
    ensures e.message != ""
  {
    var message :=
      if Truthy(rf) && Truthy(rt) && Truthy(sf) && Truthy(st) then CombinedMessage(rf, rt, sf, st)
      else if Truthy(rf) && Truthy(sf) then FromMessage(rf, sf)
      else if Truthy(rt) && Truthy(st) then ToMessage(rt, st)
      else UnknownMessage(rf, rt, sf, st);
    ZoomAPIDatetimeError(rf, rt, sf, st, message)
  }

  /** The three ways a date-error message opens. */
  datatype Opening = OpensFrom | OpensTo | OpensUnknown

  function OpeningText(o: Opening): string
  {
    match o
    case OpensFrom => FromPrefix
    case OpensTo => ToPrefix
    case OpensUnknown => UnknownPrefix
  }

  /** A message assembled from one of the three openings, some details and the closing remark. */
  lemma MessageShape(o: Opening, details: string)
    ensures var m := OpeningText(o) + details + Limitations;
      && (IsPrefix(FromPrefix, m) <==> o == OpensFrom)
      && (IsPrefix(ToPrefix, m) <==> o == OpensTo)
      && (IsPrefix(UnknownPrefix, m) <==> o == OpensUnknown)
      && |m| >= |Limitations| && m[|m| - |Limitations|..] == Limitations
  {
    var prefix := OpeningText(o);
    var m := prefix + details + Limitations;
    assert m[..|prefix|] == prefix;
    assert m[0] == prefix[0];
    assert FromPrefix[0] == 'R' && ToPrefix[0] == 'R' && UnknownPrefix[0] == 'U';
    if o != OpensUnknown {
      assert m[21] == prefix[21];
      assert FromPrefix[21] == 'f' && ToPrefix[21] == 't';
    }
    assert m[|m| - |Limitations|..] == Limitations;
  }

  /**
   * What `str(e)` shows for a date error (its message, always a string): it
   * starts with the "from" text exactly when both from-values are truthy, with
   * the "to" text exactly when only the to-pair is, and with the "Unknown" text
   * exactly when neither pair is; and it always ends with the date-range remark.
   */
  lemma DatetimeMessageShowsBranch(rf: Json, rt: Json, sf: Json, st: Json)
    ensures var m := NewDatetimeError(rf, rt, sf, st).message;
      && (IsPrefix(FromPrefix, m) <==> Truthy(rf) && Truthy(sf))
      && (IsPrefix(ToPrefix, m) <==> !(Truthy(rf) && Truthy(sf)) && Truthy(rt) && Truthy(st))
      && (IsPrefix(UnknownPrefix, m) <==> !(Truthy(rf) && Truthy(sf)) && !(Truthy(rt) && Truthy(st)))
      && |m| >= |Limitations| && m[|m| - |Limitations|..] == Limitations
  {
    var e := NewDatetimeError(rf, rt, sf, st);
    var o, details;
    if Truthy(rf) && Truthy(rt) && Truthy(sf) && Truthy(st) {
      o, details := OpensFrom, BothDetails(rf, rt, sf, st);
    } else if Truthy(rf) && Truthy(sf) {
      o, details := OpensFrom, Show(rf) + " but response included from:" + Show(sf);
    } else if Truthy(rt) && Truthy(st) {
      o, details := OpensTo, Show(rt) + " but response included to:" + Show(st);
    } else {
      o, details := OpensUnknown, BothDetails(rf, rt, sf, st);
    }
    assert e.message == OpeningText(o) + details + Limitations;
    assert o == OpensFrom <==> Truthy(rf) && Truthy(sf);
    assert o == OpensTo <==> !(Truthy(rf) && Truthy(sf)) && Truthy(rt) && Truthy(st);
    MessageShape(o, details);
  }
}

=== FILE: paging.dfy ===
/**
 * `ZoomAPIClient.get`: the paginating GET. It fills in a default page size in
 * the caller's parameter dict, classifies the first reply, checks that the
 * server echoed the requested date range, then follows `next_page_token`,
 * appending each later page's list to the first page's list.
 *
 * The server's replies are a finite transcript `replies`: `replies[0]`
 * answers the first request and `replies[i]` the i-th follow-up. When the
 * cursor chain outlives the transcript the model stops with `TranscriptEnded`.
 */
module Paging {
  import opened Values
  import opened Exceptions
  import opened Responses

  const Cursor := "next_page_token"
  const PageSize := "page_size"

  /** The endpoints whose pages may hold 300 items. */
  const HighVolumeEndpoints: set<string> := {"/phone/call_logs", "/phone/devices"}

  /** The caller's query parameters: a dict that `get` updates in place. */
  class Params {
    var entries: map<string, Json>

    constructor(entries: map<string, Json>)
      ensures this.entries == entries
    {
      this.entries := entries;
    }
  }

  /**
   * The parameters of the first request: `page_size` is added when the caller
   * gave none ("300" on the high-volume endpoints, "100" elsewhere); a value the
   * caller gave is kept, and no other entry changes.
   */
  function WithDefaultPageSize(endpoint: string, params: map<string, Json>): (p: map<string, Json>)
    ensures p.Keys == params.Keys + {PageSize}
    ensures forall k :: k in params ==> p[k] == params[k]
    ensures PageSize !in params && endpoint in HighVolumeEndpoints ==> p[PageSize] == JStr("300")
    ensures PageSize !in params && endpoint !in HighVolumeEndpoints ==> p[PageSize] == JStr("100")
  {
    if PageSize in params then params
    else if endpoint in HighVolumeEndpoints then params[PageSize := JStr("300")]
    else params[PageSize := JStr("100")]
  }

  // ---------------------------------------------------------------------------
  // The data key: the last path segment of the endpoint, as
  // `urlparse(endpoint).path.rsplit("/", 1)[-1]` finds it.

  /** The part of a URL before its query (`?`) or fragment (`#`). */
  function PathOf(u: string): (p: string)
    ensures '?' !in p && '#' !in p
    ensures |p| <= |u|
  {
    if u == [] || u[0] == '?' || u[0] == '#' then [] else [u[0]] + PathOf(u[1..])
  }

  /** The text after the last `/`, or the whole string when there is none. */
  function AfterLastSlash(p: string): (seg: string)
    ensures '/' !in seg
    ensures |seg| <= |p|
  {
    if p == [] || p[|p| - 1] == '/' then [] else AfterLastSlash(p[..|p| - 1]) + [p[|p| - 1]]
  }

  /** The text before the first `;` (`urlparse` splits `;params` off the last segment). */
  function BeforeSemicolon(s: string): (t: string)
    ensures ';' !in t
    ensures |t| <= |s|
  {
    if s == [] || s[0] == ';' then [] else [s[0]] + BeforeSemicolon(s[1..])
  }

  /** Characters no data key can contain: they end a path, a segment or a segment's text. */
  predicate PlainSegment(s: string)
  {
    '/' !in s && '?' !in s && '#' !in s && ';' !in s
  }

  function DataKey(endpoint: string): (key: string)
    ensures PlainSegment(key)
  {
    var key := BeforeSemicolon(AfterLastSlash(PathOf(endpoint)));
    assert '?' !in PathOf(endpoint) && '#' !in PathOf(endpoint);
    AfterLastSlashWithin(PathOf(endpoint));
    BeforeSemicolonWithin(AfterLastSlash(PathOf(endpoint)));
    key
  }

  lemma {:induction false} AfterLastSlashWithin(p: string)
    ensures forall c :: c in AfterLastSlash(p) ==> c in p
    decreases |p|
  {
    if p != [] && p[|p| - 1] != '/' {
      AfterLastSlashWithin(p[..|p| - 1]);
      forall c | c in p[..|p| - 1] ensures c in p {
        var j :| 0 <= j < |p| - 1 && p[..|p| - 1][j] == c;
        assert p[j] == c;
      }
    }
  }

  lemma {:induction false} BeforeSemicolonWithin(s: string)
    ensures forall c :: c in BeforeSemicolon(s) ==> c in s
    decreases |s|
  {
    if s != [] && s[0] != ';' {
      BeforeSemicolonWithin(s[1..]);
    }
  }

  /** A path without `?` or `#` is kept whole, and whatever query or fragment follows it is dropped. */
  lemma {:induction false} PathOfThenQuery(s: string, rest: string)
    requires '?' !in s && '#' !in s
    requires rest == [] || rest[0] == '?' || rest[0] == '#'
    ensures PathOf(s + rest) == s
    decreases |s|
  {
    if s != [] {
      assert s[0] in s;
      assert forall c :: c in s[1..] ==> c in s;
      assert (s + rest)[1..] == s[1..] + rest;
      PathOfThenQuery(s[1..], rest);
    }
  }

  lemma {:induction false} AfterLastSlashOfJoin(prefix: string, key: string)
    requires '/' !in key
    ensures AfterLastSlash(prefix + "/" + key) == key
    decreases |key|
  {
    var p := prefix + "/" + key;
    if key == [] {
      assert p[|p| - 1] == '/';
    } else {
      assert key[|key| - 1] in key;
      assert p[..|p| - 1] == prefix + "/" + key[..|key| - 1];
      assert forall c :: c in key[..|key| - 1] ==> c in key;
      AfterLastSlashOfJoin(prefix, key[..|key| - 1]);
      assert key == key[..|key| - 1] + [key[|key| - 1]];
    }
  }

  lemma {:induction false} BeforeSemicolonPlain(s: string)
    requires ';' !in s
    ensures BeforeSemicolon(s) == s
    decreases |s|
  {
    if s != [] {
      assert s[0] in s;
      assert forall c :: c in s[1..] ==> c in s;
      BeforeSemicolonPlain(s[1..]);
    }
  }

  /**
   * The data key is recovered from any endpoint whose path ends in it, with or
   * without a query or fragment: `/users/list` and `/users?status=active` give
   * `list` and `users`, and a prefix without query or fragment never changes that.
   */
  lemma DataKeyOfPath(prefix: string, key: string, rest: string)
    requires '?' !in prefix && '#' !in prefix
    requires PlainSegment(key)
    requires rest == [] || rest[0] == '?' || rest[0] == '#'
    ensures DataKey(prefix + "/" + key + rest) == key
  {
    var u := prefix + "/" + key;
    assert forall c :: c in u ==> c in prefix || c == '/' || c in key;
    PathOfThenQuery(u, rest);
    AfterLastSlashOfJoin(prefix, key);
    BeforeSemicolonPlain(key);
  }

  // ---------------------------------------------------------------------------
  // Python's `x in page` and `type(page) == int` on a classified reply.

  /** `k in v`: key membership on a dict, element membership on a list, substring on a string; `None` is the TypeError other values raise. */
  function Contains(v: Parsed, k: string): (r: Option<bool>)
    ensures v.JsonBody? && v.json.JObj? ==> r == Some(k in v.json.fields)
    ensures r.None? <==> !(v.JsonBody? && (v.json.JObj? || v.json.JArr? || v.json.JStr?))
  {
    match v
    case JsonBody(JObj(fields)) => Some(k in fields)
    case JsonBody(JArr(items)) => Some(JStr(k) in items)
    case JsonBody(JStr(s)) => Some(IsInfix(k, s))
    case _ => None
  }

  /** `type(v) == int`: a bare status code or a JSON body that is an integer (not a boolean). */
  predicate IsInt(v: Parsed)
  {
    v.StatusCode? || (v.JsonBody? && v.json.JNum?)
  }

  /** The items `for x in v` yields: a list's elements, or a string's one-character strings. */
  function Iterated(v: Json): (items: seq<Json>)
    requires v.JArr? || v.JStr?
    ensures v.JArr? ==> items == v.items
  {
    if v.JArr? then v.items else seq(|v.s|, i requires 0 <= i < |v.s| => JStr([v.s[i]]))
  }

  /**
   * What `target.extend(arg)` does: the items it appends, the fault it raises,
   * or `DictKeys` for a dict argument, whose keys are appended in the order
   * the JSON document gave them, an order a map does not record.
   */
  datatype Extension = Appends(items: seq<Json>) | Fails(fault: Fault) | DictKeys

  /**
   * `target.extend(arg)`: only a list has `extend`, anything else raises an
   * AttributeError; a list takes the items of any iterable argument, and a
   * number, boolean or None is not iterable (TypeError).
   */
  function ExtendBy(target: Json, arg: Json): (e: Extension)
    ensures e.Appends? <==> target.JArr? && (arg.JArr? || arg.JStr?)
    ensures e.Appends? ==> e.items == Iterated(arg)
    ensures e.DictKeys? <==> target.JArr? && arg.JObj?
    ensures e.Fails? ==> e.fault == (if target.JArr? then TypeError else AttributeError)
  {
    if !target.JArr? then Fails(AttributeError)
    else
      match arg
      case JArr(_) => Appends(Iterated(arg))
      case JStr(_) => Appends(Iterated(arg))
      case JObj(_) => DictKeys
      case _ => Fails(TypeError)
  }

  /** Extending a list with a string appends the string's characters, one one-character string each, in order. */
  lemma StringExtendAppendsCharacters(items: seq<Json>, s: string)
    ensures var e := ExtendBy(JArr(items), JStr(s));
      e.Appends? && |e.items| == |s| && forall i :: 0 <= i < |s| ==> e.items[i] == JStr([s[i]])
  {
  }

  /** What the loop body does with one fetched page: `extend` when the page holds the data key. */
  function PageStep(target: Json, page: map<string, Json>, key: string): (e: Extension)
    ensures e.Appends? <==> key !in page || (target.JArr? && (page[key].JArr? || page[key].JStr?))
    ensures e.Appends? ==> e.items == ItemsAt(page, key)
  {
    if key in page then ExtendBy(target, page[key]) else Appends([])
  }

  /** The items a page adds to the list when its `extend` succeeds; nothing when it holds no key. */
  function ItemsAt(page: map<string, Json>, key: string): seq<Json>
  {
    if key in page && (page[key].JArr? || page[key].JStr?) then Iterated(page[key]) else []
  }

  /** The dict a reply decodes to, or an empty one when it is no dict. */
  function PageFields(r: HttpResponse): map<string, Json>
  {
    match NextPage(r)
    case Fetched(fields) => fields
    case _ => map[]
  }

  /**
   * A follow-up reply as the loop sees it: a dict page, a value that is no
   * dict, or the exception the reply itself raises.
   */
  datatype Next = Fetched(fields: map<string, Json>) | NotDict(value: Parsed) | Halted(error: Exception)

  /** `get(endpoint, params, auto_page=False)` on a follow-up: the classified reply. */
  function NextPage(r: HttpResponse): (n: Next)
    ensures n.Fetched? ==> Classify(r) == Value(JsonBody(JObj(n.fields)))
    ensures n.NotDict? ==> Classify(r) == Value(n.value) && !(n.value.JsonBody? && n.value.json.JObj?)
    ensures n.Halted? ==> Classify(r) == Raise(n.error) && !n.error.DateError?
  {
    match Classify(r)
    case Raise(e) => Halted(e)
    case Value(v) => if v.JsonBody? && v.json.JObj? then Fetched(v.json.fields) else NotDict(v)
  }

  /**
   * The fault a follow-up value `v` that is no dict ends the loop with, when
   * the first page holds `target` under the data key. When `key in v` holds (a
   * list holding the key, or a string containing it), Python looks up
   * `extend` on `target` before indexing `v`, so a target that is no list
   * raises AttributeError; every other path (`in` on a scalar, indexing a
   * list or string with a string) raises TypeError.
   */
  function NotDictFault(target: Json, key: string, v: Parsed): (f: Fault)
    ensures f == AttributeError <==> Contains(v, key) == Some(true) && !target.JArr?
    ensures f != AttributeError ==> f == TypeError
  {
    match Contains(v, key)
    case Some(true) => if target.JArr? then TypeError else AttributeError
    case _ => TypeError
  }

  // ---------------------------------------------------------------------------
  // The cursor loop as a function of the transcript.

  /** How the cursor loop stopped; `Unordered` is where a dict was appended, whose key order the model lacks. */
  datatype Stop = Finished | Failed(error: Exception) | RanOut | Unordered

  /**
   * What following the cursors does: the items appended to the first page's
   * list, the cursor sent with each follow-up request, and how it stopped.
   */
  datatype Walk = Walk(appended: seq<Json>, cursors: seq<Json>, stop: Stop)

  /** A page the loop goes on from: a dict whose `extend` succeeded and that holds a cursor. */
  predicate Continues(target: Json, key: string, r: HttpResponse)
  {
    NextPage(r).Fetched? && PageStep(target, NextPage(r).fields, key).Appends? && Cursor in NextPage(r).fields
  }

  /**
   * A reply the loop goes on from was classified as a success whose body is a
   * dict holding a cursor; when that dict holds the data key, `extend` could
   * only succeed because the first page's value is a list.
   */
  lemma ContinuedReplyIsPage(target: Json, key: string, r: HttpResponse)
    requires Continues(target, key, r)
    ensures Classify(r) == Value(JsonBody(JObj(PageFields(r)))) && Cursor in PageFields(r)
    ensures key in PageFields(r) ==> target.JArr?
  {
  }

  /**
   * How the loop ends at a reply it cannot go on from: the exception the
   * reply raises, the fault `NotDictFault` names for a reply that is no dict,
   * the fault of a failed `extend`, a dict appended, or the KeyError of a page
   * without a cursor.
   */
  function Halt(target: Json, key: string, r: HttpResponse): (s: Stop)
    requires !Continues(target, key, r)
    ensures s.Failed? || s == Unordered
    ensures s.Failed? ==> !s.error.DateError?
  {
    match NextPage(r)
    case Halted(e) => Failed(e)
    case NotDict(v) => Failed(Crash(NotDictFault(target, key, v)))
    case Fetched(page) =>
      match PageStep(target, page, key)
      case Fails(f) => Failed(Crash(f))
      case DictKeys => Unordered
      case Appends(_) => Failed(Crash(KeyError))
  }

  /**
   * Follows `cursor` through the later replies `pages`; `target` is the value
   * the first page holds under the data key, which each page holding the key
   * extends. Each follow-up is `get(..., auto_page=False)`, which only
   * classifies its reply; the walk goes on from a page that `Continues` and
   * otherwise stops as `Halt` says. What was appended matters only to a walk
   * that finishes.
   */
  function Follow(cursor: Json, target: Json, key: string, pages: seq<HttpResponse>): (w: Walk)
    ensures w.cursors == [] <==> cursor == JStr("")
    ensures w.cursors != [] ==> w.cursors[0] == cursor
    ensures |w.cursors| <= |pages| + 1
    ensures w.stop == Finished ==> |w.cursors| <= |pages|
    ensures w.stop.Failed? ==> !w.stop.error.DateError?
    decreases |pages|
  {
    if cursor == JStr("") then Walk([], [], Finished)
    else if pages == [] then Walk([], [cursor], RanOut)
    else if !Continues(target, key, pages[0]) then Walk([], [cursor], Halt(target, key, pages[0]))
    else
      var page := NextPage(pages[0]).fields;
      var rest := Follow(page[Cursor], target, key, pages[1..]);
      Walk(PageStep(target, page, key).items + rest.appended, [cursor] + rest.cursors, rest.stop)
  }

  function Flatten(lists: seq<seq<Json>>): seq<Json>
  {
    if lists == [] then [] else lists[0] + Flatten(lists[1..])
  }

  /** The items each page adds under the data key. */
  function PageLists(key: string, pages: seq<HttpResponse>): (lists: seq<seq<Json>>)
    ensures |lists| == |pages|
    ensures forall i :: 0 <= i < |pages| ==> lists[i] == ItemsAt(PageFields(pages[i]), key)
  {
    seq(|pages|, i requires 0 <= i < |pages| => ItemsAt(PageFields(pages[i]), key))
  }

  /**
   * When the cursors run out, what was appended is the items of the pages
   * fetched, in page order; a page without the data key adds nothing.
   */
  lemma {:induction false} FollowAppendsPageLists(cursor: Json, target: Json, key: string, pages: seq<HttpResponse>)
    requires Follow(cursor, target, key, pages).stop == Finished
    ensures var w := Follow(cursor, target, key, pages);
      w.appended == Flatten(PageLists(key, pages[..|w.cursors|]))
    decreases |pages|
  {
    if cursor == JStr("") {
      assert pages[..0] == [];
    } else {
      var page := NextPage(pages[0]).fields;
      FollowStep(cursor, target, key, pages);
      assert PageStep(target, page, key).items == ItemsAt(page, key);
      var rest := Follow(page[Cursor], target, key, pages[1..]);
      FollowAppendsPageLists(page[Cursor], target, key, pages[1..]);
      var n := |rest.cursors|;
      var lists, tail := PageLists(key, pages[..n + 1]), PageLists(key, pages[1..][..n]);
      forall j | 0 <= j < n ensures lists[1..][j] == tail[j] {
        assert pages[..n + 1][j + 1] == pages[1..][..n][j];
      }
      assert lists[1..] == tail;
      assert lists[0] == ItemsAt(page, key);
    }
  }

  /** A walk that finishes went on from every page it fetched: each was a dict whose `extend` succeeded. */
  lemma {:induction false} FinishedWalkContinues(cursor: Json, target: Json, key: string, pages: seq<HttpResponse>)
    requires Follow(cursor, target, key, pages).stop == Finished
    ensures var w := Follow(cursor, target, key, pages);
      forall j :: 0 <= j < |w.cursors| ==> Continues(target, key, pages[j])
    decreases |pages|
  {
    if cursor != JStr("") {
      var page := NextPage(pages[0]).fields;
      FollowStep(cursor, target, key, pages);
      var rest := Follow(page[Cursor], target, key, pages[1..]);
      FinishedWalkContinues(page[Cursor], target, key, pages[1..]);
      forall j | 1 <= j < |rest.cursors| + 1 ensures Continues(target, key, pages[j]) {
        assert pages[1..][j - 1] == pages[j];
      }
    }
  }

  /**
   * A follow-up that is no dict ends the walk after its one request, with the
   * AttributeError of `extend` looked up on a target that is no list when the
   * value holds the key, and a TypeError otherwise.
   */
  lemma NotDictPageEndsWalk(cursor: Json, target: Json, key: string, pages: seq<HttpResponse>)
    requires cursor != JStr("") && pages != [] && NextPage(pages[0]).NotDict?
    ensures var w := Follow(cursor, target, key, pages);
      var v := NextPage(pages[0]).value;
      && w.cursors == [cursor]
      && w.stop == Failed(Crash(if Contains(v, key) == Some(true) && !target.JArr? then AttributeError else TypeError))
  {
  }

  /** One step of the walk from a page it goes on from: that page's items, then the walk from its cursor. */
  lemma FollowStep(cursor: Json, target: Json, key: string, pages: seq<HttpResponse>)
    requires cursor != JStr("") && pages != [] && Continues(target, key, pages[0])
    ensures var page := NextPage(pages[0]).fields;
      var rest := Follow(page[Cursor], target, key, pages[1..]);
      && PageFields(pages[0]) == page
      && Follow(cursor, target, key, pages) == Walk(PageStep(target, page, key).items + rest.appended, [cursor] + rest.cursors, rest.stop)
  {
  }

  /**
   * The cursors sent are the first cursor and then each fetched page's own
   * cursor, in order; none of them is "", and the walk finishes exactly at a
   * page whose cursor is "".
   */
  lemma {:induction false} FollowSendsPageCursors(cursor: Json, target: Json, key: string, pages: seq<HttpResponse>)
    ensures var w := Follow(cursor, target, key, pages);
      forall j :: 0 <= j < |w.cursors| ==> w.cursors[j] != JStr("")
    ensures var w := Follow(cursor, target, key, pages);
      forall j :: 0 <= j < |w.cursors| - 1 ==>
        Cursor in PageFields(pages[j]) && w.cursors[j + 1] == PageFields(pages[j])[Cursor]
    ensures var w := Follow(cursor, target, key, pages);
      w.stop == Finished && w.cursors != [] ==>
        Cursor in PageFields(pages[|w.cursors| - 1]) && PageFields(pages[|w.cursors| - 1])[Cursor] == JStr("")
    decreases |pages|
  {
    if cursor != JStr("") && pages != [] && Continues(target, key, pages[0]) {
      var page := NextPage(pages[0]).fields;
      var rest := Follow(page[Cursor], target, key, pages[1..]);
      FollowStep(cursor, target, key, pages);
      FollowSendsPageCursors(page[Cursor], target, key, pages[1..]);
      var cursors := [cursor] + rest.cursors;
      forall j | 0 <= j < |cursors| - 1
        ensures Cursor in PageFields(pages[j]) && cursors[j + 1] == PageFields(pages[j])[Cursor]
      {
        if j > 0 {
          assert pages[1..][j - 1] == pages[j];
        }
      }
      if rest.stop == Finished && |rest.cursors| > 0 {
        assert pages[1..][|rest.cursors| - 1] == pages[|cursors| - 1];
      }
    }
  }

  // ---------------------------------------------------------------------------
  // The whole GET.

  /**
   * What a GET comes to. `TranscriptEnded` and `KeyOrderUnknown` are where the
   * model stops: a request whose reply it was not given, and a dict appended
   * to the list, whose key order it does not record.
   */
  datatype Outcome = Returned(value: Parsed) | Raised(error: Exception) | TranscriptEnded | KeyOrderUnknown

  /** What a GET did: its outcome, the parameters of every request it sent, and the caller's dict afterwards. */
  datatype GetRun = GetRun(outcome: Outcome, sent: seq<map<string, Json>>, params: map<string, Json>)

  /** A request date the response does not echo: a given `from` or `to` that differs from the page's. */
  predicate DateMismatch(params: map<string, Json>, page: map<string, Json>)
    ensures "from" !in params && "to" !in params ==> !DateMismatch(params, page)
    ensures PyGet(page, "from") == PyGet(params, "from") && PyGet(page, "to") == PyGet(params, "to") ==>
      !DateMismatch(params, page)
    ensures "from" in params && params["from"] != JNull && "from" !in page ==> DateMismatch(params, page)
    ensures "to" in params && params["to"] != JNull && "to" !in page ==> DateMismatch(params, page)
  {
    (PyGet(params, "from") != JNull && PyGet(params, "from") != PyGet(page, "from"))
    || (PyGet(params, "to") != JNull && PyGet(params, "to") != PyGet(page, "to"))
  }

  /** The date error of base.py's `get`: the request's dates, then the page's. */
  function DateErrorFor(params: map<string, Json>, page: map<string, Json>): (d: ZoomAPIDatetimeError)
    ensures d.requestFrom == PyGet(params, "from") && d.requestTo == PyGet(params, "to")
    ensures d.responseFrom == PyGet(page, "from") && d.responseTo == PyGet(page, "to")
    ensures d.message != []
  {
    NewDatetimeError(PyGet(params, "from"), PyGet(params, "to"), PyGet(page, "from"), PyGet(page, "to"))
  }

  /** The first page with the items appended to its list in place; a value that is no list is never extended. */
  function Extended(page: map<string, Json>, key: string, appended: seq<Json>): (r: map<string, Json>)
    ensures r.Keys == page.Keys
    ensures forall k :: k in r && k != key ==> r[k] == page[k]
    ensures key in page && page[key].JArr? ==> r[key] == JArr(page[key].items + appended)
    ensures !(key in page && page[key].JArr?) ==> r == page
  {
    if key in page && page[key].JArr? then page[key := JArr(page[key].items + appended)] else page
  }

  /** The first page after the loop: its list extended, its cursor deleted. */
  function Merged(page: map<string, Json>, key: string, appended: seq<Json>): (r: map<string, Json>)
    ensures r.Keys == page.Keys - {Cursor}
    ensures key in page && key != Cursor && page[key].JArr? ==> r[key] == JArr(page[key].items + appended)
    ensures forall k :: k in r && k != key ==> r[k] == page[k]
    ensures !(key in page && page[key].JArr?) ==> r == page - {Cursor}
  {
    Extended(page, key, appended) - {Cursor}
  }

  /** The parameters of the follow-up requests: the first request's, with each cursor in turn. */
  function WithCursors(p: map<string, Json>, cursors: seq<Json>): seq<map<string, Json>>
  {
    seq(|cursors|, j requires 0 <= j < |cursors| => p[Cursor := cursors[j]])
  }

  /** The caller's dict after the cursor loop: the last cursor set, if any. */
  function AfterCursors(p: map<string, Json>, cursors: seq<Json>): map<string, Json>
  {
    if cursors == [] then p else p[Cursor := cursors[|cursors| - 1]]
  }

  /** What `get` raises, or where the model stops, when the loop stops early. */
  function StopOutcome(s: Stop): Outcome
    requires s != Finished
  {
    match s
    case Failed(e) => Raised(e)
    case RanOut => TranscriptEnded
    case Unordered => KeyOrderUnknown
  }

  /** What `get` returns or raises once the cursor loop has stopped. */
  function LoopOutcome(first: map<string, Json>, key: string, w: Walk): (o: Outcome)
    ensures o.Returned? <==> w.stop == Finished
    ensures o.Raised? <==> w.stop.Failed?
    ensures o.Returned? ==> o.value.JsonBody? && o.value.json.JObj? && Cursor !in o.value.json.fields
  {
    if w.stop == Finished then Returned(JsonBody(JObj(Merged(first, key, w.appended))))
    else StopOutcome(w.stop)
  }

  /** From the membership tests on the first page to the end of the loop. */
  function PageFirstReply(v: Parsed, key: string, p: map<string, Json>, later: seq<HttpResponse>): GetRun
  {
    match Contains(v, key)
    case None => GetRun(Raised(Crash(TypeError)), [p], p)
    case Some(false) => GetRun(Returned(v), [p], p)
    case Some(true) =>
      match Contains(v, Cursor)
      case None => GetRun(Raised(Crash(TypeError)), [p], p)
      case Some(false) => GetRun(Returned(v), [p], p)
      case Some(true) =>
        if !(v.JsonBody? && v.json.JObj?) then
          // A list or string that passed both tests: `.get` raises an
          // AttributeError when a date was requested, indexing a TypeError otherwise.
          var fault := if PyGet(p, "from") != JNull || PyGet(p, "to") != JNull then AttributeError else TypeError;
          GetRun(Raised(Crash(fault)), [p], p)
        else
          var first := v.json.fields;
          if DateMismatch(p, first) then GetRun(Raised(DateError(DateErrorFor(p, first))), [p], p)
          else
            var w := Follow(first[Cursor], first[key], key, later);
            GetRun(LoopOutcome(first, key, w), [p] + WithCursors(p, w.cursors), AfterCursors(p, w.cursors))
  }

  /** What `get` does once the first reply is classified. */
  function FromFirstReply(reply: Reply, key: string, autoPage: bool, p: map<string, Json>,
                          later: seq<HttpResponse>): GetRun
  {
    match reply
    case Raise(e) => GetRun(Raised(e), [p], p)
    case Value(v) =>
      if IsInt(v) || !autoPage then GetRun(Returned(v), [p], p)
      else PageFirstReply(v, key, p, later)
  }

  /**
   * Whatever the first reply, the first request carries `p`, every request
   * differs from it at most under the cursor, and the caller's dict ends as
   * the last request's parameters.
   */
  lemma FirstReplyRun(reply: Reply, key: string, autoPage: bool, p: map<string, Json>, later: seq<HttpResponse>)
    ensures var r := FromFirstReply(reply, key, autoPage, p, later);
      |r.sent| >= 1 && r.sent[0] == p && r.params == r.sent[|r.sent| - 1]
    ensures var r := FromFirstReply(reply, key, autoPage, p, later);
      forall j :: 0 <= j < |r.sent| ==> r.sent[j] - {Cursor} == p - {Cursor}
  {
    var r := FromFirstReply(reply, key, autoPage, p, later);
    if |r.sent| != 1 {
      var first := reply.parsed.json.fields;
      var w := Follow(first[Cursor], first[key], key, later);
      assert r.sent == [p] + WithCursors(p, w.cursors) && r.params == AfterCursors(p, w.cursors);
      SentFollowUps(p, w.cursors, r.sent);
      forall j | 1 <= j < |r.sent| ensures r.sent[j] - {Cursor} == p - {Cursor} {
        SetCursorKeepsRest(p, w.cursors[j - 1]);
      }
    }
  }

  lemma SetCursorKeepsRest(p: map<string, Json>, c: Json)
    ensures p[Cursor := c] - {Cursor} == p - {Cursor}
  {
  }

  /** `get(endpoint, params, auto_page)` against the transcript `replies`. */
  function GetSpec(endpoint: string, params: map<string, Json>, autoPage: bool,
                   replies: seq<HttpResponse>): GetRun
  {
    var p := WithDefaultPageSize(endpoint, params);
    if replies == [] then GetRun(TranscriptEnded, [p], p)
    else FromFirstReply(Classify(replies[0]), DataKey(endpoint), autoPage, p, replies[1..])
  }

  /**
   * Every run sends at least the first request, with the caller's parameters
   * and the default page size; the caller's dict ends as the parameters of
   * the last request sent; with no reply at all nothing is returned.
   */
  lemma GetSpecShape(endpoint: string, params: map<string, Json>, autoPage: bool, replies: seq<HttpResponse>)
    ensures var r := GetSpec(endpoint, params, autoPage, replies);
      && |r.sent| >= 1 && r.sent[0] == WithDefaultPageSize(endpoint, params)
      && r.params == r.sent[|r.sent| - 1]
      && (replies == [] ==> r.outcome == TranscriptEnded)
  {
    var p := WithDefaultPageSize(endpoint, params);
    if replies != [] {
      var reply, key, later := Classify(replies[0]), DataKey(endpoint), replies[1..];
      assert GetSpec(endpoint, params, autoPage, replies) == FromFirstReply(reply, key, autoPage, p, later);
      FirstReplyRun(reply, key, autoPage, p, later);
    }
  }

  /** Auto-paging is on and the first reply is a success whose body decodes to the dict `first`. */
  predicate DictFirstPage(autoPage: bool, replies: seq<HttpResponse>, first: map<string, Json>)
  {
    autoPage && replies != [] && Classify(replies[0]) == Value(JsonBody(JObj(first)))
  }

  /** `get` on a dict first page, case by case. */
  lemma DictFirstPageRun(endpoint: string, params: map<string, Json>, autoPage: bool,
                         replies: seq<HttpResponse>, first: map<string, Json>)
    requires DictFirstPage(autoPage, replies, first)
    ensures var p := WithDefaultPageSize(endpoint, params);
      var key := DataKey(endpoint);
      GetSpec(endpoint, params, autoPage, replies) ==
        if key !in first || Cursor !in first then GetRun(Returned(JsonBody(JObj(first))), [p], p)
        else if DateMismatch(p, first) then GetRun(Raised(DateError(DateErrorFor(p, first))), [p], p)
        else
          var w := Follow(first[Cursor], first[key], key, replies[1..]);
          GetRun(LoopOutcome(first, key, w), [p] + WithCursors(p, w.cursors), AfterCursors(p, w.cursors))
  {
  }

  /** `get` on a dict first page that passes the date check and is followed. */
  lemma FollowedRun(endpoint: string, params: map<string, Json>, autoPage: bool,
                    replies: seq<HttpResponse>, first: map<string, Json>)
    requires DictFirstPage(autoPage, replies, first)
    requires DataKey(endpoint) in first && Cursor in first
    requires !DateMismatch(WithDefaultPageSize(endpoint, params), first)
    ensures var p := WithDefaultPageSize(endpoint, params);
      var w := Follow(first[Cursor], first[DataKey(endpoint)], DataKey(endpoint), replies[1..]);
      GetSpec(endpoint, params, autoPage, replies)
        == GetRun(LoopOutcome(first, DataKey(endpoint), w), [p] + WithCursors(p, w.cursors), AfterCursors(p, w.cursors))
  {
    DictFirstPageRun(endpoint, params, autoPage, replies, first);
  }

  lemma SentFollowUps(p: map<string, Json>, cursors: seq<Json>, sent: seq<map<string, Json>>)
    requires sent == [p] + WithCursors(p, cursors)
    ensures |sent| == |cursors| + 1
    ensures forall j :: 1 <= j < |sent| ==> sent[j] == p[Cursor := cursors[j - 1]]
  {
  }

  /**
   * A status code, or any reply when auto-paging is off, is returned as
   * classified after one request.
   */
  lemma UnpagedReplyReturnedAsIs(endpoint: string, params: map<string, Json>, autoPage: bool,
                                 replies: seq<HttpResponse>)
    requires replies != [] && Classify(replies[0]).Value?
    requires IsInt(Classify(replies[0]).parsed) || !autoPage
    ensures var p := WithDefaultPageSize(endpoint, params);
      GetSpec(endpoint, params, autoPage, replies) == GetRun(Returned(Classify(replies[0]).parsed), [p], p)
  {
  }

  /** An error reply to the first request is raised after that one request. */
  lemma FirstErrorRaised(endpoint: string, params: map<string, Json>, autoPage: bool,
                         replies: seq<HttpResponse>)
    requires replies != [] && replies[0].status !in SuccessStatuses
    ensures var run := GetSpec(endpoint, params, autoPage, replies);
      run.outcome == Raised(ErrorFor(replies[0])) && |run.sent| == 1
  {
  }

  /** A first page without the data key or without a cursor is returned unchanged after one request. */
  lemma PageWithoutCursorReturnedAsIs(endpoint: string, params: map<string, Json>, autoPage: bool,
                                      replies: seq<HttpResponse>, first: map<string, Json>)
    requires DictFirstPage(autoPage, replies, first)
    requires DataKey(endpoint) !in first || Cursor !in first
    ensures var p := WithDefaultPageSize(endpoint, params);
      GetSpec(endpoint, params, autoPage, replies) == GetRun(Returned(JsonBody(JObj(first))), [p], p)
  {
    DictFirstPageRun(endpoint, params, autoPage, replies, first);
  }

  /**
   * On a page that would be followed, the date error is raised exactly when a
   * requested `from` or `to` differs from the page's, carries the four values,
   * and is raised before any follow-up request.
   */
  lemma DateErrorExactlyOnMismatch(endpoint: string, params: map<string, Json>, autoPage: bool,
                                   replies: seq<HttpResponse>, first: map<string, Json>)
    requires DictFirstPage(autoPage, replies, first)
    requires DataKey(endpoint) in first && Cursor in first
    ensures var p := WithDefaultPageSize(endpoint, params);
      var run := GetSpec(endpoint, params, autoPage, replies);
      (run.outcome.Raised? && run.outcome.error.DateError? <==> DateMismatch(p, first))
    ensures var p := WithDefaultPageSize(endpoint, params);
      var run := GetSpec(endpoint, params, autoPage, replies);
      DateMismatch(p, first) ==>
        && run.sent == [p]
        && run.outcome.error.date.requestFrom == PyGet(p, "from")
        && run.outcome.error.date.requestTo == PyGet(p, "to")
        && run.outcome.error.date.responseFrom == PyGet(first, "from")
        && run.outcome.error.date.responseTo == PyGet(first, "to")
  {
    DictFirstPageRun(endpoint, params, autoPage, replies, first);
  }

  /**
   * The follow-up requests: the first carries the first page's cursor and each
   * later one the cursor of the page before it; no request carries "", and
   * there is one follow-up per non-empty cursor.
   */
  lemma FollowUpsCarryPageCursors(endpoint: string, params: map<string, Json>, autoPage: bool,
                                  replies: seq<HttpResponse>, first: map<string, Json>)
    requires DictFirstPage(autoPage, replies, first)
    requires DataKey(endpoint) in first && Cursor in first
    requires !DateMismatch(WithDefaultPageSize(endpoint, params), first)
    ensures var run := GetSpec(endpoint, params, autoPage, replies);
      |run.sent| >= 2 <==> first[Cursor] != JStr("")
    ensures var p := WithDefaultPageSize(endpoint, params);
      var run := GetSpec(endpoint, params, autoPage, replies);
      |run.sent| >= 2 ==> run.sent[1] == p[Cursor := first[Cursor]]
    ensures var p := WithDefaultPageSize(endpoint, params);
      var run := GetSpec(endpoint, params, autoPage, replies);
      forall j :: 2 <= j < |run.sent| ==>
        Cursor in PageFields(replies[j - 1]) && run.sent[j] == p[Cursor := PageFields(replies[j - 1])[Cursor]]
    ensures var run := GetSpec(endpoint, params, autoPage, replies);
      forall j :: 1 <= j < |run.sent| ==> Cursor in run.sent[j] && run.sent[j][Cursor] != JStr("")
    ensures |GetSpec(endpoint, params, autoPage, replies).sent| <= |replies| + 1
  {
    var p := WithDefaultPageSize(endpoint, params);
    var key := DataKey(endpoint);
    var later := replies[1..];
    var w := Follow(first[Cursor], first[key], key, later);
    var run := GetSpec(endpoint, params, autoPage, replies);
    FollowedRun(endpoint, params, autoPage, replies, first);
    SentFollowUps(p, w.cursors, run.sent);
    FollowSendsPageCursors(first[Cursor], first[key], key, later);
    forall j | 2 <= j < |run.sent|
      ensures Cursor in PageFields(replies[j - 1]) && run.sent[j] == p[Cursor := PageFields(replies[j - 1])[Cursor]]
    {
      assert later[j - 2] == replies[j - 1];
    }
  }

  /**
   * When every cursor has been followed, the returned dict is the first page
   * with its list extended by the items of the pages fetched, in order, and
   * with the cursor removed; every page fetched was a dict whose `extend`
   * succeeded.
   */
  lemma MergedPageConcatenatesLists(endpoint: string, params: map<string, Json>, autoPage: bool,
                                    replies: seq<HttpResponse>, first: map<string, Json>)
    requires DictFirstPage(autoPage, replies, first)
    requires DataKey(endpoint) in first && Cursor in first
    ensures var run := GetSpec(endpoint, params, autoPage, replies);
      run.outcome.Returned? ==>
        var key := DataKey(endpoint);
        && 1 <= |run.sent| <= |replies|
        && run.outcome.value == JsonBody(JObj(Merged(first, key, Flatten(PageLists(key, replies[1..|run.sent|])))))
        && forall j :: 1 <= j < |run.sent| ==> Continues(first[key], key, replies[j])
  {
    var p := WithDefaultPageSize(endpoint, params);
    var key := DataKey(endpoint);
    var later := replies[1..];
    var run := GetSpec(endpoint, params, autoPage, replies);
    if run.outcome.Returned? {
      DictFirstPageRun(endpoint, params, autoPage, replies, first);
      assert !DateMismatch(p, first);
      FollowedRun(endpoint, params, autoPage, replies, first);
      var w := Follow(first[Cursor], first[key], key, later);
      assert run.outcome == LoopOutcome(first, key, w);
      assert w.stop == Finished;
      SentFollowUps(p, w.cursors, run.sent);
      assert replies[1..|run.sent|] == later[..|w.cursors|];
      FollowAppendsPageLists(first[Cursor], first[key], key, later);
      FinishedWalkContinues(first[Cursor], first[key], key, later);
      forall j | 1 <= j < |run.sent| ensures Continues(first[key], key, replies[j]) {
        assert later[j - 1] == replies[j];
      }
    }
  }

  /**
   * A data value that is no list comes back as it was, less the cursor, and
   * then no page fetched held the data key: `extend` on it would have failed.
   */
  lemma UnlistedValueReturnedAsIs(endpoint: string, params: map<string, Json>, autoPage: bool,
                                  replies: seq<HttpResponse>, first: map<string, Json>)
    requires DictFirstPage(autoPage, replies, first)
    requires DataKey(endpoint) in first && Cursor in first
    ensures var run := GetSpec(endpoint, params, autoPage, replies);
      var key := DataKey(endpoint);
      run.outcome.Returned? && !first[key].JArr? ==>
        && run.outcome.value == JsonBody(JObj(first - {Cursor}))
        && forall j :: 1 <= j < |run.sent| && j < |replies| ==> key !in PageFields(replies[j])
  {
    var key := DataKey(endpoint);
    var run := GetSpec(endpoint, params, autoPage, replies);
    MergedPageConcatenatesLists(endpoint, params, autoPage, replies, first);
    if run.outcome.Returned? && !first[key].JArr? {
      forall j | 1 <= j < |run.sent| && j < |replies| ensures key !in PageFields(replies[j]) {
        assert Continues(first[key], key, replies[j]);
      }
    }
  }

  /**
   * Paging stops only at a cursor of "": the first page's when no follow-up
   * was sent, otherwise the last page fetched.
   */
  lemma PagingStopsAtEmptyCursor(endpoint: string, params: map<string, Json>, autoPage: bool,
                                 replies: seq<HttpResponse>, first: map<string, Json>)
    requires DictFirstPage(autoPage, replies, first)
    requires DataKey(endpoint) in first && Cursor in first
    ensures var run := GetSpec(endpoint, params, autoPage, replies);
      run.outcome.Returned? && |run.sent| == 1 ==> first[Cursor] == JStr("")
    ensures var run := GetSpec(endpoint, params, autoPage, replies);
      run.outcome.Returned? && |run.sent| > 1 ==>
        && |run.sent| <= |replies|
        && Cursor in PageFields(replies[|run.sent| - 1])
        && PageFields(replies[|run.sent| - 1])[Cursor] == JStr("")
  {
    var key := DataKey(endpoint);
    var later := replies[1..];
    var run := GetSpec(endpoint, params, autoPage, replies);
    DictFirstPageRun(endpoint, params, autoPage, replies, first);
    if run.outcome.Returned? {
      var w := Follow(first[Cursor], first[key], key, later);
      assert |run.sent| == 1 + |w.cursors|;
      FollowSendsPageCursors(first[Cursor], first[key], key, later);
      if |w.cursors| > 0 {
        assert later[|w.cursors| - 1] == replies[|run.sent| - 1];
      }
    }
  }

  /**
   * The only entries `get` adds to or changes in the caller's dict are
   * `page_size` (when it was missing) and the cursor: every request sent
   * agrees with the first except under the cursor.
   */
  lemma ParamsChangeOnlyPageSizeAndCursor(endpoint: string, params: map<string, Json>, autoPage: bool,
                                          replies: seq<HttpResponse>)
    ensures var run := GetSpec(endpoint, params, autoPage, replies);
      forall j :: 0 <= j < |run.sent| ==>
        run.sent[j] - {Cursor} == WithDefaultPageSize(endpoint, params) - {Cursor}
    ensures var run := GetSpec(endpoint, params, autoPage, replies);
      && run.params.Keys <= params.Keys + {PageSize, Cursor}
      && (forall k :: k in params && k != Cursor ==> k in run.params && run.params[k] == params[k])
  {
    var p := WithDefaultPageSize(endpoint, params);
    var run := GetSpec(endpoint, params, autoPage, replies);
    GetSpecShape(endpoint, params, autoPage, replies);
    if replies != [] {
      FirstReplyRun(Classify(replies[0]), DataKey(endpoint), autoPage, p, replies[1..]);
    }
    var last := run.sent[|run.sent| - 1];
    assert last - {Cursor} == p - {Cursor};
    forall k | k in params && k != Cursor
      ensures k in run.params && run.params[k] == params[k]
    {
      assert k in last - {Cursor};
    }
    forall k | k in run.params
      ensures k in params.Keys + {PageSize, Cursor}
    {
      if k != Cursor {
        assert k in p - {Cursor};
      }
    }
  }

  lemma WithCursorsSnoc(p: map<string, Json>, cursors: seq<Json>, c: Json)
    ensures WithCursors(p, cursors + [c]) == WithCursors(p, cursors) + [p[Cursor := c]]
  {
  }

  /** What one pass of the loop body leaves: a page to go on from, or the loop's outcome. */
  datatype Pass = GoOn(page: map<string, Json>) | Stops(outcome: Outcome)

  /**
   * One pass of the loop body once the follow-up is sent: the reply is
   * classified, and when it is a dict holding the data key, the first page's
   * value under the key is extended with it; the loop goes on only from a dict
   * that holds a cursor.
   */
  method LoopBody(key: string, data: map<string, Json>, reply: HttpResponse)
    returns (pass: Pass, extended: map<string, Json>)
    requires key in data
    ensures pass.GoOn? <==> Continues(data[key], key, reply)
    ensures pass.GoOn? ==> pass.page == NextPage(reply).fields
    ensures pass.GoOn? && data[key].JArr? ==>
      extended == data[key := JArr(data[key].items + PageStep(data[key], pass.page, key).items)]
    ensures pass.GoOn? && !data[key].JArr? ==> extended == data
    ensures pass.Stops? ==> pass.outcome == StopOutcome(Halt(data[key], key, reply))
  {
    extended := data;
    var next := NextPage(reply);
    if next.Halted? {
      return Stops(Raised(next.error)), extended;
    } else if next.NotDict? {
      return Stops(Raised(Crash(NotDictFault(data[key], key, next.value)))), extended;
    }
    var page := next.fields;
    if key in page {
      var ext := ExtendBy(data[key], page[key]);
      if ext.Fails? {
        return Stops(Raised(Crash(ext.fault))), extended;
      } else if ext.DictKeys? {
        return Stops(KeyOrderUnknown), extended;
      }
      extended := data[key := JArr(data[key].items + ext.items)];
    } else {
      if data[key].JArr? {
        assert data[key].items + [] == data[key].items;
        assert data[key := JArr(data[key].items)] == data;
      }
    }
    if Cursor !in page {
      return Stops(Raised(Crash(KeyError))), extended;
    }
    pass := GoOn(page);
  }

  /**
   * Extending does not change whether the first page's value is a list, so
   * the value extended so far stands for the first page's own in every step,
   * and a step that goes on leaves the first page extended by all items so far.
   */
  lemma ExtendStep(first: map<string, Json>, key: string, appended: seq<Json>, data: map<string, Json>,
                   r: HttpResponse)
    requires key in first && data == Extended(first, key, appended)
    ensures Continues(data[key], key, r) == Continues(first[key], key, r)
    ensures !Continues(first[key], key, r) ==> Halt(data[key], key, r) == Halt(first[key], key, r)
    ensures Continues(first[key], key, r) ==>
      var m := NextPage(r).fields;
      var e := PageStep(first[key], m, key);
      && PageStep(data[key], m, key) == e
      && (data[key].JArr? ==> Extended(first, key, appended + e.items) == data[key := JArr(data[key].items + e.items)])
      && (!data[key].JArr? ==> Extended(first, key, appended + e.items) == data)
  {
    if Continues(first[key], key, r) && first[key].JArr? {
      var e := PageStep(first[key], NextPage(r).fields, key);
      assert first[key].items + appended + e.items == first[key].items + (appended + e.items);
    }
  }

  /** The walk so far followed by the walk from cursor `c` over `pages`. */
  predicate WalkSplits(whole: Walk, appended: seq<Json>, cursors: seq<Json>, c: Json, target: Json, key: string,
                       pages: seq<HttpResponse>)
  {
    var w := Follow(c, target, key, pages);
    whole == Walk(appended + w.appended, cursors + w.cursors, w.stop)
  }

  /** The walk stops at cursor `c`: no reply left, or a reply it cannot go on from. */
  lemma WalkStopsAt(whole: Walk, appended: seq<Json>, cursors: seq<Json>, c: Json, target: Json, key: string,
                    pages: seq<HttpResponse>)
    requires c != JStr("") && WalkSplits(whole, appended, cursors, c, target, key, pages)
    requires pages != [] ==> !Continues(target, key, pages[0])
    ensures whole.cursors == cursors + [c]
    ensures whole.stop == if pages == [] then RanOut else Halt(target, key, pages[0])
  {
  }

  /** The walk goes on from a page that continues: its items are appended and its cursor followed. */
  lemma WalkAdvances(whole: Walk, appended: seq<Json>, cursors: seq<Json>, c: Json, target: Json, key: string,
                     pages: seq<HttpResponse>)
    requires c != JStr("") && WalkSplits(whole, appended, cursors, c, target, key, pages)
    requires pages != [] && Continues(target, key, pages[0])
    ensures var m := NextPage(pages[0]).fields;
      WalkSplits(whole, appended + PageStep(target, m, key).items, cursors + [c], m[Cursor], target, key, pages[1..])
  {
    var m := NextPage(pages[0]).fields;
    var items := PageStep(target, m, key).items;
    var rest := Follow(m[Cursor], target, key, pages[1..]);
    assert Follow(c, target, key, pages) == Walk(items + rest.appended, [c] + rest.cursors, rest.stop);
    assert appended + (items + rest.appended) == (appended + items) + rest.appended;
    assert cursors + ([c] + rest.cursors) == (cursors + [c]) + rest.cursors;
  }

  /**
   * One pass of the loop body against the walk: a pass that stops gives the
   * walk's outcome, after one more cursor; a pass that goes on leaves the
   * first page extended by the items so far and the rest of the walk to follow.
   */
  lemma LoopStep(first: map<string, Json>, key: string, whole: Walk, appended: seq<Json>, cursors: seq<Json>,
                 c: Json, pages: seq<HttpResponse>, data: map<string, Json>, pass: Pass, extended: map<string, Json>)
    requires key in first && c != JStr("") && pages != []
    requires WalkSplits(whole, appended, cursors, c, first[key], key, pages)
    requires data == Extended(first, key, appended)
    requires pass.GoOn? <==> Continues(data[key], key, pages[0])
    requires pass.GoOn? ==> pass.page == NextPage(pages[0]).fields
    requires pass.GoOn? && data[key].JArr? ==>
      extended == data[key := JArr(data[key].items + PageStep(data[key], pass.page, key).items)]
    requires pass.GoOn? && !data[key].JArr? ==> extended == data
    requires pass.Stops? ==> pass.outcome == StopOutcome(Halt(data[key], key, pages[0]))
    ensures pass.Stops? ==> whole.cursors == cursors + [c] && pass.outcome == LoopOutcome(first, key, whole)
    ensures pass.GoOn? ==>
      var items := PageStep(first[key], pass.page, key).items;
      && Cursor in pass.page
      && extended == Extended(first, key, appended + items)
      && WalkSplits(whole, appended + items, cursors + [c], pass.page[Cursor], first[key], key, pages[1..])
  {
    ExtendStep(first, key, appended, data, pages[0]);
    if pass.Stops? {
      WalkStopsAt(whole, appended, cursors, c, first[key], key, pages);
    } else {
      WalkAdvances(whole, appended, cursors, c, first[key], key, pages);
    }
  }

  /** Setting cursor `c` in the caller's dict and sending it extends the requests by one. */
  lemma CursorSent(p: map<string, Json>, cursors: seq<Json>, c: Json, entries: map<string, Json>,
                   sent: seq<map<string, Json>>)
    requires entries == AfterCursors(p, cursors) && sent == WithCursors(p, cursors)
    ensures entries[Cursor := c] == AfterCursors(p, cursors + [c])
    ensures sent + [entries[Cursor := c]] == WithCursors(p, cursors + [c])
  {
    WithCursorsSnoc(p, cursors, c);
  }

  /**
   * The `while` loop of `get`: sets the cursor in the caller's dict before
   * each follow-up, extends the first page's data value with each later
   * page's, and deletes the cursor from the first page when the cursor is "".
   */
  method MergePages(d: Params, key: string, first: map<string, Json>, later: seq<HttpResponse>)
    returns (outcome: Outcome, sent: seq<map<string, Json>>)
    requires Cursor in first && key in first
    modifies d
    ensures var w := Follow(first[Cursor], first[key], key, later);
      && outcome == LoopOutcome(first, key, w)
      && sent == WithCursors(old(d.entries), w.cursors)
      && d.entries == AfterCursors(old(d.entries), w.cursors)
  {
    ghost var p := d.entries;
    ghost var target := first[key];
    ghost var whole := Follow(first[Cursor], target, key, later);
    var data := first;
    var page := first;
    var i := 0;
    ghost var appended: seq<Json> := [];
    ghost var cursors: seq<Json> := [];
    sent := [];
    assert data == Extended(first, key, appended) by {
      if target.JArr? {
        assert target.items + appended == target.items;
        assert first[key := JArr(target.items)] == first;
      }
    }
    assert WalkSplits(whole, appended, cursors, page[Cursor], target, key, later[i..]);
    while page[Cursor] != JStr("")
      invariant 0 <= i <= |later|
      invariant Cursor in page
      invariant data == Extended(first, key, appended)
      invariant WalkSplits(whole, appended, cursors, page[Cursor], target, key, later[i..])
      invariant d.entries == AfterCursors(p, cursors)
      invariant sent == WithCursors(p, cursors)
      decreases |later| - i
    {
      var c := page[Cursor];
      CursorSent(p, cursors, c, d.entries, sent);
      d.entries := d.entries[Cursor := c];
      sent := sent + [d.entries];
      if i == |later| {
        WalkStopsAt(whole, appended, cursors, c, target, key, later[i..]);
        outcome := TranscriptEnded;
        return;
      }
      assert later[i..][0] == later[i];
      var pass, extended := LoopBody(key, data, later[i]);
      LoopStep(first, key, whole, appended, cursors, c, later[i..], data, pass, extended);
      if pass.Stops? {
        outcome := pass.outcome;
        return;
      }
      var m := pass.page;
      assert later[i..][1..] == later[i + 1..];
      appended := appended + PageStep(target, m, key).items;
      data := extended;
      cursors := cursors + [c];
      page := m;
      i := i + 1;
    }
    assert whole == Walk(appended, cursors, Finished);
    data := data - {Cursor};
    outcome := Returned(JsonBody(JObj(data)));
  }

  /**
   * `get` itself: updates the caller's dict in place (`page_size`, then each
   * cursor), and returns the outcome and the parameters of every request sent,
   * as `GetSpec` describes.
   */
  method Get(endpoint: string, params: Params?, autoPage: bool, replies: seq<HttpResponse>)
    returns (outcome: Outcome, sent: seq<map<string, Json>>)
    modifies params
    ensures var run := GetSpec(endpoint, if params == null then map[] else old(params.entries), autoPage, replies);
      outcome == run.outcome && sent == run.sent && (params != null ==> params.entries == run.params)
  {
    var d: Params;
    if params == null {
      d := new Params(map[]);
    } else {
      d := params;
    }
    if PageSize !in d.entries {
      if endpoint in HighVolumeEndpoints {
        d.entries := d.entries[PageSize := JStr("300")];
      } else {
        d.entries := d.entries[PageSize := JStr("100")];
      }
    }
    ghost var p := d.entries;
    sent := [d.entries];
    if |replies| == 0 {
      outcome := TranscriptEnded;
      return;
    }
    var reply := Classify(replies[0]);
    if reply.Raise? {
      outcome := Raised(reply.error);
      return;
    }
    var parsed := reply.parsed;
    if IsInt(parsed) || !autoPage {
      outcome := Returned(parsed);
      return;
    }
    var key := DataKey(endpoint);
    ghost var later := replies[1..];
    assert GetSpec(endpoint, if params == null then map[] else old(params.entries), autoPage, replies)
      == PageFirstReply(parsed, key, p, later);
    var hasKey := Contains(parsed, key);
    if hasKey.None? {
      outcome := Raised(Crash(TypeError));
      return;
    } else if !hasKey.value {
      outcome := Returned(parsed);
      return;
    }
    var hasCursor := Contains(parsed, Cursor);
    if hasCursor.None? {
      outcome := Raised(Crash(TypeError));
      return;
    } else if !hasCursor.value {
      outcome := Returned(parsed);
      return;
    }
    if !(parsed.JsonBody? && parsed.json.JObj?) {
      if PyGet(d.entries, "from") != JNull || PyGet(d.entries, "to") != JNull {
        outcome := Raised(Crash(AttributeError));
      } else {
        outcome := Raised(Crash(TypeError));
      }
      return;
    }
    var first := parsed.json.fields;
    var dateError := false;
    if PyGet(d.entries, "from") != JNull {
      if PyGet(d.entries, "from") != PyGet(first, "from") {
        dateError := true;
      }
    }
    if PyGet(d.entries, "to") != JNull {
      if PyGet(d.entries, "to") != PyGet(first, "to") {
        dateError := true;
      }
    }
    if dateError {
      outcome := Raised(DateError(NewDatetimeError(PyGet(d.entries, "from"), PyGet(d.entries, "to"),
                                                   PyGet(first, "from"), PyGet(first, "to"))));
      return;
    }
    var rest;
    outcome, rest := MergePages(d, key, first, replies[1..]);
    sent := sent + rest;
  }
}

=== FILE: responses.dfy ===
/**
 * `ZoomAPIClient.parse_request_response`: sorting an HTTP reply into a
 * status code, a decoded JSON body, raw bytes, or a raised exception.
 */
module Responses {
  import opened Values
  import opened Exceptions

  /**
   * An HTTP reply as the client sees it: the status code, the raw body, what
   * `response.json()` decodes a non-empty body to (`None` when decoding
   * raises) and the URL that was requested. `response.json()` always raises
   * on an empty body, so `json` is only read when `content` is non-empty.
   */
  datatype HttpResponse = HttpResponse(status: nat, content: seq<byte>, json: Option<Json>, url: string)

  /** The three kinds of value the classifier returns. */
  datatype Parsed = StatusCode(code: nat) | JsonBody(json: Json) | RawBody(content: seq<byte>)

  /** Python exceptions other than the client's own that the core can raise. */
  datatype Fault = JsonDecodeError | TypeError | KeyError | AttributeError

  datatype Exception =
    | ApiError(api: ZoomAPIError)
    | DateError(date: ZoomAPIDatetimeError)
    | Crash(fault: Fault)

  /** A classification: a returned value or a raised exception. */
  datatype Reply = Value(parsed: Parsed) | Raise(error: Exception)

  const SuccessStatuses: set<nat> := {200, 201, 204}

  /** "Received status code {status} on {url}". */
  function GenericMessage(status: nat, url: string): (m: string)
    ensures |m| > |url| + 25
    ensures m[..21] == "Received status code "
    ensures m[|m| - |url| - 4..] == " on " + url
  {
    "Received status code " + NatToString(status) + " on " + url
  }

  /**
   * The exception raised for a status outside 200/201/204. Python's
   * `"message" in body` is key membership on a dict, element membership on a
   * list and substring search on a string, and a TypeError on any other value;
   * a list or string that passes the test fails with a TypeError when indexed
   * by "message". A body that is empty or not JSON raises the decoder's error.
   */
  function ErrorFor(r: HttpResponse): (e: Exception)
    ensures r.content == [] || r.json.None? ==> e == Crash(JsonDecodeError)
    ensures r.content != [] && r.json.Some? && r.json.value.JObj? && "message" in r.json.value.fields ==>
      e == ApiError(ZoomAPIError(r.json.value.fields["message"]))
    ensures r.content != [] && r.json.Some? && r.json.value.JObj? && "message" !in r.json.value.fields ==>
      e == ApiError(ZoomAPIError(JStr(GenericMessage(r.status, r.url))))
    ensures e.ApiError? ==> r.content != [] && r.json.Some?
  {
    if r.content == [] || r.json.None? then Crash(JsonDecodeError)
    else
      var body := r.json.value;
      var generic := ApiError(NewZoomAPIError([JStr(GenericMessage(r.status, r.url))]));
      match body
      case JObj(fields) =>
        if "message" in fields then ApiError(NewZoomAPIError([fields["message"]])) else generic
      case JArr(items) =>
        if JStr("message") in items then Crash(TypeError) else generic
      case JStr(s) =>
        if IsInfix("message", s) then Crash(TypeError) else generic
      case _ => Crash(TypeError)
  }

  /** `parse_request_response(response)`. */
  function Classify(r: HttpResponse): (out: Reply)
    ensures out.Value? <==> r.status in SuccessStatuses
    ensures r.status in SuccessStatuses && r.content == [] ==> out == Value(StatusCode(r.status))
    ensures r.status in SuccessStatuses && r.content != [] && r.json.Some? ==>
      out == Value(JsonBody(r.json.value))
    ensures r.status in SuccessStatuses && r.content != [] && r.json.None? ==>
      out == Value(RawBody(r.content))
    ensures r.status !in SuccessStatuses ==> out == Raise(ErrorFor(r))
  {
    if r.status in SuccessStatuses then
      if r.content == [] then Value(StatusCode(r.status))
      else if r.json.Some? then Value(JsonBody(r.json.value))
      else Value(RawBody(r.content))
    else
      Raise(ErrorFor(r))
  }

  /** A value the classifier returns came from the reply: its status, its decoded body or its bytes. */
  lemma ClassifiedValueComesFromReply(r: HttpResponse)
    requires Classify(r).Value?
    ensures match Classify(r).parsed
      case StatusCode(c) => c == r.status && r.content == []
      case JsonBody(j) => r.json == Some(j) && r.content != []
      case RawBody(b) => b == r.content && r.content != [] && r.json.None?
  {
  }

  /** Position of the first space in a string, or its length when there is none. */
  function FirstSpace(s: string): nat
  {
    if s == [] || s[0] == ' ' then 0 else 1 + FirstSpace(s[1..])
  }

  lemma {:induction false} FirstSpaceAfterDigits(d: string, rest: string)
    requires forall i :: 0 <= i < |d| ==> IsDigit(d[i])
    requires |rest| > 0 && rest[0] == ' '
    ensures FirstSpace(d + rest) == |d|
  {
    if d == [] {
      assert d + rest == rest;
    } else {
      assert (d + rest)[0] == d[0];
      assert (d + rest)[1..] == d[1..] + rest;
      FirstSpaceAfterDigits(d[1..], rest);
    }
  }

  lemma DigitsThenSpace(d1: string, d2: string, u1: string, u2: string)
    requires forall i :: 0 <= i < |d1| ==> IsDigit(d1[i])
    requires forall i :: 0 <= i < |d2| ==> IsDigit(d2[i])
    requires d1 + " on " + u1 == d2 + " on " + u2
    ensures d1 == d2 && u1 == u2
  {
    var s := d1 + " on " + u1;
    assert s == d1 + (" on " + u1) && s == d2 + (" on " + u2);
    FirstSpaceAfterDigits(d1, " on " + u1);
    FirstSpaceAfterDigits(d2, " on " + u2);
    assert d1 == s[..|d1|] == d2;
    assert u1 == s[|d1| + 4..] == u2;
  }

  /**
   * The synthesised message names the status code and the URL unambiguously:
   * two replies get the same message only if both agree.
   */
  lemma GenericMessageIdentifiesReply(s1: nat, u1: string, s2: nat, u2: string)
    requires GenericMessage(s1, u1) == GenericMessage(s2, u2)
    ensures s1 == s2 && u1 == u2
  {
    var p := "Received status code ";
    var t1 := NatToString(s1) + " on " + u1;
    var t2 := NatToString(s2) + " on " + u2;
    assert GenericMessage(s1, u1) == p + t1 && GenericMessage(s2, u2) == p + t2;
    assert t1 == (p + t1)[|p|..];
    assert t2 == (p + t2)[|p|..];
    DigitsThenSpace(NatToString(s1), NatToString(s2), u1, u2);
    NatToStringInjective(s1, s2);
  }
}

=== FILE: s2s_auth.dfy ===
/**
 * `S2S_AUTH`: the server-to-server OAuth credential provider. It holds one
 * access token and the instant it stops trusting it, and refreshes the token
 * through the account-credentials exchange when it is missing or stale.
 *
 * Time is an integer count of seconds. The clock is read twice per refresh
 * (once to decide, once after the exchange to compute the expiry), so both
 * readings are parameters. The exchange's reply is a parameter too.
 */
module S2S {
  import opened Values

  const ExchangeEndpoint := "https://zoom.us/oauth/token?grant_type=account_credentials"
  const TokenIndex := "0"
  /** Seconds taken off the server's `expires_in` so the token is renewed early. */
  const SafetyMargin := 300

  /** The fields of the exchange's JSON reply that the provider reads. */
  datatype TokenReply = TokenReply(accessToken: string, expiresIn: int, scope: string)

  /** The exchange POST: its URL and the basic-auth pair it sends. */
  datatype ExchangeRequest = ExchangeRequest(url: string, clientId: string, clientSecret: string)

  /** The provider's mutable state as a value: the held token (None before the first exchange) and its expiry. */
  datatype Credential = Credential(token: Option<string>, expiry: int)

  function UrlPrefix(): string
  {
    ExchangeEndpoint + "&token_index=" + TokenIndex + "&account_id="
  }

  /** The exchange URL for an account. */
  function TokenUrl(accountId: string): (url: string)
    ensures IsPrefix(UrlPrefix(), url)
    ensures |url| == |UrlPrefix()| + |accountId|
  {
    var url := UrlPrefix() + accountId;
    assert url[..|UrlPrefix()|] == UrlPrefix();
    url
  }

  /** Reads the account id back out of an exchange URL. */
  function AccountIdOf(url: string): Option<string>
  {
    if IsPrefix(UrlPrefix(), url) then Some(url[|UrlPrefix()|..]) else None
  }

  /** The URL carries the account id verbatim: reading it back gives the id, so distinct accounts get distinct URLs. */
  lemma TokenUrlRoundTrip(accountId: string)
    ensures AccountIdOf(TokenUrl(accountId)) == Some(accountId)
  {
    assert TokenUrl(accountId)[|UrlPrefix()|..] == accountId;
  }

  /** `__call__`'s test: no token yet, or the clock has reached the stored expiry. */
  predicate NeedsRefresh(c: Credential, now: int)
  {
    now >= c.expiry || c.token.None?
  }

  /** The state `generate_new_s2s_access_token` leaves: the new token, expiring `expires_in - 300` s after `refreshedAt`. */
  function Exchanged(refreshedAt: int, reply: TokenReply): (c: Credential)
    ensures c.token == Some(reply.accessToken)
    ensures c.expiry + SafetyMargin == refreshedAt + reply.expiresIn
  {
    Credential(Some(reply.accessToken), refreshedAt + reply.expiresIn - SafetyMargin)
  }

  /** The state after one `__call__` at time `now`. */
  function AfterCall(c: Credential, now: int, refreshedAt: int, reply: TokenReply): (c': Credential)
    ensures c'.token.Some?
    ensures NeedsRefresh(c, now) ==> c' == Exchanged(refreshedAt, reply)
    ensures !NeedsRefresh(c, now) ==> c' == c
    ensures NeedsRefresh(c, now) || now < c'.expiry
  {
    if NeedsRefresh(c, now) then Exchanged(refreshedAt, reply) else c
  }

  /** `Authorization: Bearer <token>`. */
  function BearerHeader(token: string): (h: string)
    ensures |h| == |token| + 7 && h[..7] == "Bearer " && h[7..] == token
  {
    "Bearer " + token
  }

  /** One call to the provider: the clock readings and the reply an exchange would get. */
  datatype CallInput = CallInput(now: int, refreshedAt: int, reply: TokenReply)

  /** A run of calls from state `c`: the final state and how many exchanges were made. */
  function Run(c: Credential, calls: seq<CallInput>): (r: (Credential, nat))
    ensures r.1 <= |calls|
    ensures calls != [] ==> r.0.token.Some?
    ensures calls != [] && c.token.None? ==> r.1 >= 1
    ensures r.1 == 0 ==> r.0 == c
    decreases |calls|
  {
    if calls == [] then (c, 0)
    else
      var k := calls[0];
      var (final, n) := Run(AfterCall(c, k.now, k.refreshedAt, k.reply), calls[1..]);
      (final, n + if NeedsRefresh(c, k.now) then 1 else 0)
  }

  /**
   * `Run` is calls one after another: a run followed by one more call ends in
   * `AfterCall` of the run's final state (the step `S2SAuth.Call` takes), with
   * one more exchange exactly when that state needs a refresh.
   */
  lemma {:induction false} RunThenCall(c: Credential, calls: seq<CallInput>, k: CallInput)
    ensures var (mid, n) := Run(c, calls);
      Run(c, calls + [k]) == (AfterCall(mid, k.now, k.refreshedAt, k.reply), n + if NeedsRefresh(mid, k.now) then 1 else 0)
    decreases |calls|
  {
    if calls == [] {
      assert [] + [k] == [k];
    } else {
      RunThenCall(AfterCall(c, calls[0].now, calls[0].refreshedAt, calls[0].reply), calls[1..], k);
      assert (calls + [k])[1..] == calls[1..] + [k];
    }
  }

  /** While a held token has not reached its expiry, calls reuse it and make no exchange. */
  lemma {:induction false} NoExchangeBeforeExpiry(c: Credential, calls: seq<CallInput>)
    requires c.token.Some?
    requires forall i :: 0 <= i < |calls| ==> calls[i].now < c.expiry
    ensures Run(c, calls) == (c, 0)
    decreases |calls|
  {
    if calls != [] {
      assert AfterCall(c, calls[0].now, calls[0].refreshedAt, calls[0].reply) == c;
      NoExchangeBeforeExpiry(c, calls[1..]);
    }
  }

  /**
   * A call that finds the token missing or stale exchanges exactly once; every
   * later call that comes before the new expiry reuses the new token.
   */
  lemma OneExchangePerLifetime(c: Credential, calls: seq<CallInput>)
    requires calls != [] && NeedsRefresh(c, calls[0].now)
    requires var renewed := Exchanged(calls[0].refreshedAt, calls[0].reply);
      forall i :: 1 <= i < |calls| ==> calls[i].now < renewed.expiry
    ensures Run(c, calls) == (Exchanged(calls[0].refreshedAt, calls[0].reply), 1)
  {
    var renewed := Exchanged(calls[0].refreshedAt, calls[0].reply);
    var rest := calls[1..];
    assert forall i :: 0 <= i < |rest| ==> rest[i].now < renewed.expiry by {
      forall i | 0 <= i < |rest| ensures rest[i].now < renewed.expiry {
        assert rest[i] == calls[i + 1];
      }
    }
    NoExchangeBeforeExpiry(renewed, rest);
  }

  /**
   * A token granted for no more than the safety margin is stale at once: the
   * next call at or after the refresh instant exchanges again.
   */
  lemma ShortLivedTokenRefreshesEveryCall(refreshedAt: int, reply: TokenReply, later: int)
    requires reply.expiresIn <= SafetyMargin && later >= refreshedAt
    ensures NeedsRefresh(Exchanged(refreshedAt, reply), later)
  {
  }

  /** An HTTP request whose header map the provider writes. */
  class PreparedRequest {
    var headers: map<string, string>

    constructor(headers: map<string, string>)
      ensures this.headers == headers
    {
      this.headers := headers;
    }
  }

  class S2SAuth {
    const accountId: string
    const clientId: string
    const clientSecret: string
    var accessToken: Option<string>
    var expiration: int

    function State(): Credential
      reads this
    {
      Credential(accessToken, expiration)
    }

    /** `S2S_AUTH(ACCOUNT_ID, S2S_CLIENT_ID, S2S_CLIENT_SECRET)` at time `now`. */
    constructor(accountId: string, clientId: string, clientSecret: string, now: int)
      ensures this.accountId == accountId && this.clientId == clientId
      ensures this.clientSecret == clientSecret
      ensures accessToken == None && expiration == now
      ensures forall t :: NeedsRefresh(State(), t)
    {
      this.accountId := accountId;
      this.clientId := clientId;
      this.clientSecret := clientSecret;
      accessToken := None;
      expiration := now;
    }

    /**
     * `generate_new_s2s_access_token`: sends the exchange, stores the new
     * expiry and returns the new token without storing it.
     */
    method GenerateNewAccessToken(refreshedAt: int, reply: TokenReply)
      returns (request: ExchangeRequest, token: string)
      modifies this`expiration
      ensures request == ExchangeRequest(TokenUrl(accountId), clientId, clientSecret)
      ensures token == reply.accessToken
      ensures expiration == Exchanged(refreshedAt, reply).expiry
      ensures accessToken == old(accessToken)
    {
      request := ExchangeRequest(TokenUrl(accountId), clientId, clientSecret);
      expiration := refreshedAt + reply.expiresIn - SafetyMargin;
      token := reply.accessToken;
    }

    /**
     * `__call__(r)`: refreshes when needed, then sets the request's
     * Authorization header to the held token and leaves its other headers alone.
     */
    method Call(r: PreparedRequest, now: int, refreshedAt: int, reply: TokenReply)
      returns (exchange: Option<ExchangeRequest>)
      modifies this, r
      ensures State() == AfterCall(old(State()), now, refreshedAt, reply)
      ensures exchange.Some? <==> NeedsRefresh(old(State()), now)
      ensures exchange.Some? ==> exchange.value == ExchangeRequest(TokenUrl(accountId), clientId, clientSecret)
      ensures accessToken.Some?
      ensures r.headers == old(r.headers)["Authorization" := BearerHeader(accessToken.value)]
    {
      exchange := None;
      if now >= expiration || accessToken == None {
        var request, token := GenerateNewAccessToken(refreshedAt, reply);
        accessToken := Some(token);
        exchange := Some(request);
      }
      r.headers := r.headers["Authorization" := BearerHeader(accessToken.value)];
    }
  }
}

=== FILE: values.dfy ===
/**
 * The Python values the client passes around: decoded JSON bodies, query
 * parameter values, exception messages. `JNull` stands for Python's `None`
 * (both a JSON `null` and a missing `dict.get` lookup). Floating-point
 * numbers are not modelled; JSON numbers are integers.
 */
module Values {

  newtype byte = x: int | 0 <= x < 256

  datatype Option<T> = None | Some(value: T)

  datatype Json =
    | JNull
    | JBool(b: bool)
    | JNum(n: int)
    | JStr(s: string)
    | JArr(items: seq<Json>)
    | JObj(fields: map<string, Json>)

  /** Python truthiness of a decoded value: None, False, 0, "", [] and {} are false. */
  predicate Truthy(v: Json)
  {
    match v
    case JNull => false
    case JBool(b) => b
    case JNum(n) => n != 0
    case JStr(s) => s != ""
    case JArr(items) => items != []
    case JObj(fields) => fields != map[]
  }

  /** `d.get(k)`: the value under `k`, or None when the key is absent. */
  function PyGet(d: map<string, Json>, k: string): Json
  {
    if k in d then d[k] else JNull
  }

  predicate IsDigit(c: char)
  {
    '0' <= c <= '9'
  }

  function Digit(d: nat): (c: char)
    requires d < 10
    ensures IsDigit(c)
  {
    (48 + d) as char
  }

  /** Decimal notation of a natural number, as Python's `str(n)` writes it. */
  function NatToString(n: nat): (s: string)
    ensures |s| > 0
    ensures forall i :: 0 <= i < |s| ==> IsDigit(s[i])
    ensures n >= 10 ==> |s| >= 2
  {
    if n < 10 then [Digit(n)] else NatToString(n / 10) + [Digit(n % 10)]
  }

  /** Distinct numbers are written differently, so a rendered number names its value. */
  lemma {:induction false} NatToStringInjective(a: nat, b: nat)
    requires NatToString(a) == NatToString(b)
    ensures a == b
  {
    if a >= 10 && b >= 10 {
      var sa, sb := NatToString(a), NatToString(b);
      assert sa[|sa| - 1] == Digit(a % 10) && sb[|sb| - 1] == Digit(b % 10);
      assert a % 10 == b % 10;
      assert sa[..|sa| - 1] == NatToString(a / 10);
      assert sb[..|sb| - 1] == NatToString(b / 10);
      NatToStringInjective(a / 10, b / 10);
    } else if a < 10 && b < 10 {
      assert NatToString(a)[0] == Digit(a);
      assert NatToString(b)[0] == Digit(b);
    }
  }

  function IntToString(n: int): string
  {
    if n < 0 then "-" + NatToString(-n) else NatToString(n)
  }

  /**
   * Python's `str(v)` as an f-string writes it. Exact for None, booleans,
   * integers and strings; lists and dicts are rendered as placeholders.
   */
  function Show(v: Json): string
  {
    match v
    case JNull => "None"
    case JBool(b) => if b then "True" else "False"
    case JNum(n) => IntToString(n)
    case JStr(s) => s
    case JArr(_) => "[...]"
    case JObj(_) => "{...}"
  }

  predicate IsPrefix(p: string, s: string)
  {
    |p| <= |s| && s[..|p|] == p
  }

  /** Python's `p in s` on two strings: `p` occurs somewhere in `s`. */
  predicate IsInfix(p: string, s: string)
    decreases |s|
  {
    IsPrefix(p, s) || (|s| > 0 && IsInfix(p, s[1..]))
  }
}
